=== FILE: README.md ===
# Todo/category rule engine — a Dafny model

This project models the rule engine of a personal todo application (a Next.js app whose
state lives in two zustand stores). It covers:

- the entity types (`Todo`, `Category`, priorities, periods, inputs, filter options);
- the todo store: the filter engine `applyFilters`, the add, toggle, delete and update
  transitions, the options merge, and the weekly rollover `moveUncompletedTodos`;
- the category store: seed, add, delete, rename and wholesale reorder;
- the dashboard's period aggregator: week, month and year ranges, bucketing by due, start
  or creation date, the category pre-filter, the completion rate and the delay classifiers;
- the creation form's submit logic and the filter widgets' value-to-option mappings.

Each store is an immutable state record. Each operation is a pure function from one state
to the next. The invariant `filteredTodos == applyFilters(todos, filterOptions)` is part of
every transition's contract.

Time is integer milliseconds of local time on a uniform timeline. Every day has 86 400 000
ms, there are no time zones or daylight saving, and day 0 is 1970-01-01. The date-fns
helpers become integer arithmetic in module `Calendar`. Week starts and ends come from a
Monday-first weekday index. Month and year bounds come from a proleptic Gregorian
day-number conversion, with a round-trip proof (`Calendar.DateRoundTrip`). Fresh ids and
"now" are parameters.

Files: `wrappers.dfy` (Option), `seqs.dfy` (order-preserving filter and its laws),
`text.dfy` (JavaScript `trim`, number-to-text), `calendar.dfy`, `types.dfy`,
`todostore.dfy`, `categorystore.dfy`, `periodview.dfy`, `todoform.dfy`, `todofilters.dfy`.

Some behaviours of the code that the model keeps on purpose:

- The date-window end is `23:59:59.000` of the chosen day, not `.999`, because the code
  appends `'T23:59:59'` (`TodoStore.WindowEndOf`).
- Description normalisation compares the *untrimmed* input with `'0'`. So `" 0"` is stored
  as `"0"` (`TodoStore.PaddedZeroIsKept`). The next rollover then clears it.
- An update whose patch leaves out `description` clears the stored description.
- The rollover needs both a start and a due date. A todo with only a due date in the
  current week is never moved (`TodoStore.DueOnlyTodoNotRolled`).
- The category store has no guard against deleting the default or the last category
  (`CategoryStore.DefaultCategoryIsDeletable`). The store also does not check that a reorder is a permutation
  (`CategoryStore.ReorderIsUnchecked`).
- The period window is widened to whole Monday-first weeks for every period, not only for
  weeks (`PeriodView.Widen`).

## Model

| member | source | states |
|---|---|---|
| Types.ParsePriority | lib/types/todo.ts:1 | only the three names parse, each to the priority it names |
| Types.PriorityNamesRoundTrip | lib/types/todo.ts:1 | a string parses to a priority exactly when it is that priority's name (three values) |
| Types.ParsePeriod | lib/types/todo.ts:41 | only the three period names parse, each to the period it names |
| Types.PeriodNamesRoundTrip | lib/types/todo.ts:41 | a string parses to a period exactly when it is that period's name (three values) |
| Types.FilterTodosByPeriodStub | lib/types/todo.ts:59-68 | the exported placeholder returns no todos for every input, with a range that starts and ends at the current instant |
| Text.Trim | lib/store/todo-store.ts:79 | `trim()` returns a contiguous slice with no JavaScript whitespace at either end; it is empty exactly when the input is blank |
| Text.TrimRemovesOnlyWhitespace | lib/store/todo-store.ts:79 | everything `trim()` drops, before and after the kept slice, is whitespace |
| Text.TrimIdempotent | lib/store/todo-store.ts:83 | trimming an already trimmed string changes nothing |
| Text.NatToString | components/dashboard/period-view.tsx:117 | a natural number's text is a non-empty string of decimal digits with no leading zero, except "0" itself |
| Text.IntToString | components/dashboard/period-view.tsx:117 | an integer's text starts with a minus sign exactly when it is negative; the rest is decimal digits with no leading zero, except "0" |
| Text.NatToStringRoundTrip | components/dashboard/period-view.tsx:117 | reading the digits of a number's text gives the number back |
| Text.IntToStringInjective | components/dashboard/period-view.tsx:111-119 | different integers have different text |
| Text.IntToStringIsTrimmed | lib/store/todo-store.ts:83 | number text holds no whitespace, so `trim()` leaves it unchanged, and it is never blank |
| Seqs.Filter | lib/store/todo-store.ts:25-26 | `filter` keeps, in order, only elements passing the predicate, and keeps every element that passes |
| Seqs.FilterMultiset | lib/store/todo-store.ts:103 | each passing element is kept as often as it occurs, and no other element is kept |
| Seqs.FilterIsSubsequence | lib/store/category-store.ts:34 | the result of `filter` is an order-preserving subsequence of the input |
| Seqs.FilterIdempotent | lib/store/todo-store.ts:25-26 | filtering twice with the same predicate equals filtering once |
| Seqs.FilterCommutes | lib/store/todo-store.ts:25-26 | two filters in sequence equal one filter by the conjunction, in either order |
| Calendar.MidnightOf | lib/store/todo-store.ts:44 | `'T00:00:00'` gives an instant on the chosen day, aligned to midnight |
| Calendar.StartOfWeek | components/dashboard/period-view.tsx:31 | the result is a Monday midnight at most one week before the instant, and not after it |
| Calendar.EndOfWeek | components/dashboard/period-view.tsx:32 | the result is the last millisecond of a Sunday, less than one week after the instant, and not before it |
| Calendar.StartOfWeekUnique | components/dashboard/period-view.tsx:31 | any Monday midnight within the week before an instant is its week start, so the week start is uniquely determined |
| Calendar.WeekBoundsIdempotent | components/dashboard/period-view.tsx:63-64 | week start and end are fixed points of the same operation |
| Calendar.SameWeek | lib/store/todo-store.ts:153-156 | an instant is within the current week's interval exactly when it has the same week start |
| Calendar.AddWeeks | lib/store/todo-store.ts:159-160 | adding n weeks moves the day by 7n and keeps the weekday and the time of day |
| Calendar.StartOfWeekShift | lib/store/todo-store.ts:159-160 | shifting an instant by one week shifts its week start by one week |
| Calendar.DateOf | components/dashboard/period-view.tsx:38-49 | every day number has a valid calendar date that maps back to it |
| Calendar.DateRoundTrip | components/dashboard/period-view.tsx:38-49 | each valid calendar date maps to a day number and back to itself |
| Calendar.StartOfMonth | components/dashboard/period-view.tsx:40 | the result is midnight of the 1st of the instant's month, and not after the instant |
| Calendar.EndOfMonth | components/dashboard/period-view.tsx:41 | the result is the last millisecond of the last day of the instant's month, and not before the instant |
| Calendar.StartOfYear | components/dashboard/period-view.tsx:46 | the result is midnight of January 1st of the instant's year, and not after the instant |
| Calendar.EndOfYear | components/dashboard/period-view.tsx:47 | the result is the last millisecond of December 31st of the instant's year, and not before the instant |
| Calendar.CalendarAnchors | components/dashboard/period-view.tsx:31 | 2000-01-01 is day 10957 and 2025-06-09 is a Monday, so the epoch and weekday are anchored correctly |
| TodoStore.ApplyFilters | lib/store/todo-store.ts:25-61 | every kept todo is from the input and passes all five filters; every input todo passing them is kept |
| TodoStore.ApplyFiltersIsSubsequence | lib/store/todo-store.ts:25-26 | the result is an order-preserving subsequence with each passing todo exactly as often as in the input |
| TodoStore.ApplyFiltersIdempotent | lib/store/todo-store.ts:25-61 | filtering twice with the same options equals filtering once |
| TodoStore.ApplyFiltersCommute | lib/store/todo-store.ts:25-61 | filters under two option sets commute, so the order of conjunctive filtering does not matter |
| TodoStore.EmptyCategoryOptionIsNoRestriction | lib/store/todo-store.ts:28-30 | an empty category option filters exactly like an absent one |
| TodoStore.FilterKeepsOnlyMatching | lib/store/todo-store.ts:28-35 | a non-empty category option or any priority option keeps only todos with exactly that value |
| TodoStore.ShowCompletedFilter | lib/store/todo-store.ts:38-40 | an absent or false `showCompleted` drops every completed todo; a true one keeps exactly the todos passing the other filters |
| TodoStore.DateWindow | lib/store/todo-store.ts:43-57 | a todo whose effective start is before the start day's midnight, or whose effective due is after 23:59:59 of the end day, is excluded |
| TodoStore.WindowEndOf | lib/store/todo-store.ts:52 | the window end lies on the chosen day, 999 ms before that day's last millisecond |
| TodoStore.Init | lib/store/todo-store.ts:64-68 | the initial store has no todos, its options are exactly `{ showCompleted: true }`, and it satisfies the filtered-view invariant |
| TodoStore.InitialOptionsKeepEverything | lib/store/todo-store.ts:66-68 | under the initial options (`showCompleted = true` only) the filter keeps every todo |
| TodoStore.NormalizeDescription | lib/store/todo-store.ts:77-83 | the description is absent exactly when the input is absent, blank, `'0'` or `0`; otherwise it is the trimmed, non-empty text |
| TodoStore.PaddedZeroIsKept | lib/store/todo-store.ts:78-83 | `" 0"` is not caught by the `'0'` test and is stored as `"0"` |
| TodoStore.NumberDescriptionIsText | lib/store/todo-store.ts:81-83 | every non-zero number is stored as its decimal text, which the trim leaves unchanged |
| TodoStore.AddTodo | lib/store/todo-store.ts:69-90 | exactly one todo is appended with the given id, creation instant, input fields, normalised description, `completed = false` and `delayCount = 0`; earlier todos and the options are unchanged; the invariant holds |
| TodoStore.ToggleTodo | lib/store/todo-store.ts:91-100 | matching todos have their completion flipped and nothing else changed; other todos are unchanged; the invariant holds |
| TodoStore.ToggleTwice | lib/store/todo-store.ts:91-100 | toggling an id twice restores the todos, and the whole state when it was consistent |
| TodoStore.ToggleUnknown | lib/store/todo-store.ts:93-95 | toggling an unknown id leaves the todos unchanged |
| TodoStore.DeleteTodo | lib/store/todo-store.ts:101-108 | no todo with the id remains; every other todo keeps its multiplicity and order; the invariant holds |
| TodoStore.DeleteUnknown | lib/store/todo-store.ts:103 | deleting an unknown id leaves the todos unchanged |
| TodoStore.ApplyPatch | lib/store/todo-store.ts:111-122 | for every field except the description, a key present in the patch wins and a missing key keeps the todo's value; the description is the normalised patch value, so a missing one clears it |
| TodoStore.UpdateTodo | lib/store/todo-store.ts:109-130 | only todos with the matching id are replaced by their patched version; others and the length are unchanged; the invariant holds |
| TodoStore.UpdateWithoutDescriptionClears | lib/store/todo-store.ts:116-122 | an update whose patch omits the description leaves the updated todo without one |
| TodoStore.PatchOf | lib/types/todo.ts:31-39 | the patch of an `UpdateTodoInput` carries its title, description, completion and priority, and its start date, due date and category exactly when the input has them; it has no id, creation or delay keys |
| TodoStore.UpdateInputKeepsIdentity | lib/types/todo.ts:31-39 | an update built from an `UpdateTodoInput` never changes any todo's id, creation instant or delay count |
| TodoStore.MergeOptions | lib/store/todo-store.ts:131-138 | each key present in the partial options replaces the current value, and each missing key keeps it |
| TodoStore.MergeOptionsLaws | lib/store/todo-store.ts:133 | merging is idempotent, the empty partial is the identity, and a partial naming every key replaces all options |
| TodoStore.SetFilterOptions | lib/store/todo-store.ts:131-138 | the options become the merge of old and new, the todos are unchanged, and the filtered view is recomputed |
| TodoStore.CleanDescription | lib/store/todo-store.ts:141-145 | a description equal to `'0'` is cleared with every other field kept, and any other todo is returned unchanged |
| TodoStore.MoveUncompletedTodos | lib/store/todo-store.ts:139-177 | length and order are kept; a todo with both dates, incomplete and due in now's Monday-first week gets both dates 7 days later and delay count + 1; every other field and every other todo is unchanged apart from the `'0'` cleanup; the invariant holds |
| TodoStore.RolledLeavesWeek | lib/store/todo-store.ts:153-167 | a rolled-over todo is due after the current week, so it does not qualify again |
| TodoStore.MoveUncompletedTodosSingleShot | lib/store/todo-store.ts:139-177 | a second rollover at any instant of the same week changes nothing further |
| TodoStore.DueOnlyTodoNotRolled | lib/store/todo-store.ts:151 | a todo without a start date is never moved |
| TodoStore.CompletedTodoNotRolled | lib/store/todo-store.ts:158 | a completed todo is never moved, even when due this week |
| TodoStore.AddThenRollover | lib/store/todo-store.ts:139-177 | a todo added with both dates at this week's Monday is, after a rollover, delayed once and due next Monday, outside the current week |
| CategoryStore.Seed | lib/store/category-store.ts:13-17 | the seed list holds ids '1', '2', '3' in order, with distinct ids, and the default category is first and only |
| CategoryStore.AddCategory | lib/store/category-store.ts:19-30 | one entry with the given name and id is appended; the prefix is unchanged; a fresh id keeps ids unique |
| CategoryStore.DeleteCategory | lib/store/category-store.ts:32-36 | no entry with the id remains; the others keep their multiplicity and order |
| CategoryStore.DeleteUnknownCategory | lib/store/category-store.ts:34 | deleting an unknown id changes nothing |
| CategoryStore.DefaultCategoryIsDeletable | lib/store/category-store.ts:32-36 | deleting id '1' from the seed list leaves no default category: the store has no guard |
| CategoryStore.UpdateCategory | lib/store/category-store.ts:38-44 | only the names of matching entries change; length, ids, creation instants and order are kept |
| CategoryStore.ReorderCategories | lib/store/category-store.ts:46-50 | the list becomes exactly the given list |
| CategoryStore.ReorderIsUnchecked | lib/store/category-store.ts:46-50 | a reorder can duplicate one entry and lose another, since it is not checked to be a permutation |
| PeriodView.GetDateRange | components/dashboard/period-view.tsx:27-51 | the range contains now and is the Monday-first week, the calendar month or the calendar year of now, from first to last millisecond |
| PeriodView.WeekRange | components/dashboard/period-view.tsx:30-37 | Monday 00:00 to Sunday 23:59:59.999 of now's week, containing now |
| PeriodView.MonthRange | components/dashboard/period-view.tsx:38-43 | first to last millisecond of now's calendar month, containing now |
| PeriodView.YearRange | components/dashboard/period-view.tsx:44-49 | first to last millisecond of now's calendar year, containing now |
| PeriodView.BucketDate | components/dashboard/period-view.tsx:58-60 | the bucket date is the due date if present, else the start date, else the creation instant |
| PeriodView.Widen | components/dashboard/period-view.tsx:62-65 | the widened window contains the range, runs from a Monday 00:00 to a Sunday 23:59:59.999, and extends the range by less than a week at each end |
| PeriodView.FilterTodosByPeriod | components/dashboard/period-view.tsx:53-75 | exactly the todos whose bucket date lies in the widened window, ends included, are kept; the returned range is the unwidened one |
| PeriodView.FilterTodosByPeriodIsSubsequence | components/dashboard/period-view.tsx:56-66 | the period's todos are an order-preserving subsequence of the input that keeps every copy of each todo in the window and no other todo |
| PeriodView.WeekWideningIsIdentity | components/dashboard/period-view.tsx:62-65 | for the week period the widening is the identity, and a todo is in the period exactly when its bucket date is in now's week |
| PeriodView.RangeInsideWindow | components/dashboard/period-view.tsx:62-65 | every todo whose bucket date is in the canonical range is in the period, for every period |
| PeriodView.CategoryPreFilter | components/dashboard/period-view.tsx:136-138 | 'all' keeps every todo; any other selection keeps exactly the todos with that category id, each as often as it occurs |
| PeriodView.CompletionRate | components/dashboard/period-view.tsx:148 | 0 without todos; otherwise the nearest integer to 100·completed/total with halves rounded up; always in 0..100 |
| PeriodView.CompletionRateExamples | components/dashboard/period-view.tsx:148 | 0 of 0 is 0 %, 2 of 4 is 50 %, 1 of 3 is 33 %, 1 of 8 is 13 % |
| PeriodView.CountCompleted | components/dashboard/period-view.tsx:146 | the completed count plus the number of open todos is the number of todos |
| PeriodView.CompletedSplit | components/dashboard/period-view.tsx:146 | every todo is either completed or open, so the two filters split the list |
| PeriodView.PeriodProgress | components/dashboard/period-view.tsx:136-148 | the total counts the pre-filtered period todos, the completed count counts the completed ones among them, and the rate is the rounded share of the two, in 0..100 and 0 when there are none |
| PeriodView.DelayColor | components/dashboard/period-view.tsx:87-97 | empty exactly when the count is absent or at most 0; 1 is yellow, 2 orange, 3 or more red |
| PeriodView.DelayTextColor | components/dashboard/period-view.tsx:99-109 | empty exactly when the count is absent or at most 0; 1 is yellow, 2 orange, 3 or more red |
| PeriodView.DelayText | components/dashboard/period-view.tsx:111-119 | every branch yields the count's decimal text followed by the "weeks late" suffix |
| PeriodView.DelayTextInjective | components/dashboard/period-view.tsx:111-119 | different counts produce different labels |
| PeriodView.RolledTodoIsHighlighted | components/dashboard/period-view.tsx:87-109 | a todo the rollover moved, with a non-negative count before, gets a non-empty delay colour and text colour |
| TodoForm.DefaultCategoryId | components/todo/todo-form.tsx:30 | absent exactly when no category has the default name; otherwise the id of the first such category |
| TodoForm.SeedDefaultIsFirst | components/todo/todo-form.tsx:30 | with the seed categories the default resolves to id '1' |
| TodoForm.ResolveCategory | components/todo/todo-form.tsx:48 | unset, empty or 'none' resolves to the default category's id (possibly absent); any other choice is kept |
| TodoForm.MidnightOpt | components/todo/todo-form.tsx:46-47 | an empty date field gives no date; a chosen day gives midnight of that day |
| TodoForm.HandleSubmit | components/todo/todo-form.tsx:32-49 | a blank title is refused; otherwise a start day after the due day is refused (equal days pass); otherwise the untrimmed title, trimmed-or-absent description, midnight dates and resolved category are passed on, with start not after due |
| TodoForm.StartAfterDueExample | components/todo/todo-form.tsx:37-40 | start 2025-06-10 with due 2025-06-05 is refused |
| TodoForm.SubmitThenAdd | components/todo/todo-form.tsx:42-49 | an accepted submission adds a todo with the typed title, the trimmed description unless it is empty or `'0'`, and start not after due |
| TodoFilters.OnCategoryChange | components/todo/todo-filters.tsx:26-36 | only the category option changes; it is set exactly when the value is not 'all' and is a known category id, and then equals that id |
| TodoFilters.OnPriorityChange | components/todo/todo-filters.tsx:54-59 | only the priority option changes; 'all' clears it, a priority name selects that priority |
| TodoFilters.OnStartDateChange | components/todo/todo-filters.tsx:76-81 | only the start-date option changes; a cleared input clears it, a picked day sets it |
| TodoFilters.OnEndDateChange | components/todo/todo-filters.tsx:89-94 | only the end-date option changes; a cleared input clears it, a picked day sets it |
| TodoFilters.OnShowCompletedChange | components/todo/todo-filters.tsx:105-110 | only `showCompleted` changes, to the checkbox state |
| TodoFilters.HandlerThroughStore | components/todo/todo-filters.tsx:27 | a handler's full options object, merged by the store, becomes exactly the store's options, with todos unchanged and the view recomputed |
| TodoFilters.CategorySelectionFilters | components/todo/todo-filters.tsx:26-36 | choosing an existing category leaves only that category's todos in the filtered view |

## Left out

- React rendering, hooks, JSX and the zustand `create`/`set` plumbing. Each store is a state value and each operation returns the next state.
- `crypto.randomUUID()` and `new Date()`: fresh ids and the current instant are parameters.
- Time zones, daylight saving and date-fns internals. Every day is 86 400 000 ms of local time.
- Parsing `'yyyy-MM-dd'` strings. Filter and form dates are optional day numbers, so an unparseable string (an Invalid Date that compares false and filters nothing) is not modelled. The form compares its two days as UTC dates and stores local midnights; on the uniform timeline both agree.
- Label and display strings (`format`, Korean labels, `formatTodoDate`), except the delay text.
- RollsOver: the source reads the clock twice, once for the week start and once for the week end. The model uses a single instant `now` for both, so a call that straddles midnight between Sunday and Monday is not modelled.
- The effect that runs the rollover when the week view is shown (components/dashboard/period-view.tsx:129-133); only the rollover itself is modelled.
- components/todo/edit-todo-dialog.tsx, components/category/category-manager.tsx (drag-and-drop uses a library function that is not part of this model), components/todo/todo-item.tsx and app/page.tsx: presentation only.
- CompletionRate: computes the exactly rounded percentage. The source divides in floating point first, so on some inputs that are exactly halfway (such as 29 of 200) `Math.round` may round down where the model rounds up.
- NormalizeDescription: numbers are integers only; floating-point values, `NaN` and non-string, non-number values are not modelled. Integers are unbounded, so the decimal text matches JavaScript's `toString()` only for safe integers (magnitude at most 2^53), and not from 1e21 up, where JavaScript switches to exponent notation. The same holds for DelayText.
- Seed: the source reads the clock once per seeded category (lib/store/category-store.ts:14-16). The model uses one instant `now` for all three, so the three creation instants are equal in the model but may differ by a millisecond in the source.
- FilterTodosByPeriodStub: the placeholder reads the clock twice (lib/types/todo.ts:63-64). The model uses one instant `now`, so its start and end are equal, which the source does not guarantee.
- DelayColor: delay counts are integers; a fractional count (which the source would class as red) is not modelled. The same holds for DelayTextColor.
- OnPriorityChange: requires the select's value to be 'all' or a priority name, the only items the widget offers; the source's unchecked cast of any other string is not modelled.
- ApplyPatch: a required `Todo` field explicitly set to `undefined` in a patch is not modelled; optional fields distinguish a missing key from an explicit `undefined`.

=== FILE: calendar.dfy ===
/**
 * Local time as integer milliseconds on a uniform timeline (every day has 86 400 000 ms,
 * no time zones, no daylight saving), with day 0 = 1970-01-01. This replaces the date-fns
 * functions the source calls: startOfWeek / endOfWeek with weekStartsOn = 1,
 * startOfMonth / endOfMonth, startOfYear / endOfYear, addWeeks and isWithinInterval.
 */
module Calendar {

  const DayMs: int := 86_400_000
  const WeekMs: int := 7 * DayMs

  /** The day number of the instant `t` (days since 1970-01-01, rounding down). */
  function DayOf(t: int): int {
    t / DayMs
  }

  /** Local midnight of day `day`, as the source builds with `new Date(s + 'T00:00:00')`. */
  function MidnightOf(day: int): (r: int)
    ensures DayOf(r) == day && r % DayMs == 0
  {
    day * DayMs
  }

  /** 23:59:59.999 of day `day`: the last instant whose day number is `day`. */
  function LastInstantOf(day: int): (r: int)
    ensures DayOf(r) == day && (r + 1) % DayMs == 0
    ensures forall t :: DayOf(t) <= day ==> t <= r
  {
    MidnightOf(day) + DayMs - 1
  }

  /** `d` lies in the closed interval `[lo, hi]`: date-fns isWithinInterval. */
  predicate Within(d: int, lo: int, hi: int) {
    lo <= d <= hi
  }

  /** Position in a Monday-first week: 0 is Monday, 6 is Sunday (1970-01-01 was a Thursday). */
  function WeekdayIndex(day: int): (r: int)
    ensures 0 <= r < 7
  {
    (day + 3) % 7
  }

  /** Monday 00:00:00.000 of the week containing `t`: startOfWeek(t, { weekStartsOn: 1 }). */
  function StartOfWeek(t: int): (r: int)
    ensures r <= t < r + WeekMs
    ensures r % DayMs == 0 && WeekdayIndex(DayOf(r)) == 0
  {
    var d := DayOf(t);
    MidnightOf(d - WeekdayIndex(d))
  }

  /** Sunday 23:59:59.999 of the week containing `t`: endOfWeek(t, { weekStartsOn: 1 }). */
  function EndOfWeek(t: int): (r: int)
    ensures t <= r < t + WeekMs
    ensures (r + 1) % DayMs == 0 && WeekdayIndex(DayOf(r)) == 6
  {
    var s := StartOfWeek(t);
    assert DayOf(s + WeekMs - 1) == DayOf(s) + 6;
    s + WeekMs - 1
  }

  /** date-fns addWeeks(t, n) on the uniform timeline. */
  function AddWeeks(t: int, n: int): (r: int)
    ensures DayOf(r) == DayOf(t) + 7 * n && WeekdayIndex(DayOf(r)) == WeekdayIndex(DayOf(t))
    ensures r % DayMs == t % DayMs
  {
    t + n * WeekMs
  }

  /** A Monday midnight no more than a week before `t` is the start of `t`'s week. */
  lemma StartOfWeekUnique(t: int, m: int)
    requires m % DayMs == 0 && WeekdayIndex(DayOf(m)) == 0
    requires m <= t < m + WeekMs
    ensures StartOfWeek(t) == m
  {
    var s := StartOfWeek(t);
    var a, b := DayOf(s), DayOf(m);
    assert s == a * DayMs && m == b * DayMs;
    assert -7 < a - b < 7;
    assert (a - b) % 7 == 0;
  }

  /** The week boundaries of an instant are fixed points of the same operation. */
  lemma WeekBoundsIdempotent(t: int)
    ensures StartOfWeek(StartOfWeek(t)) == StartOfWeek(t)
    ensures EndOfWeek(EndOfWeek(t)) == EndOfWeek(t)
    ensures StartOfWeek(EndOfWeek(t)) == StartOfWeek(t)
  {
    StartOfWeekUnique(StartOfWeek(t), StartOfWeek(t));
    StartOfWeekUnique(EndOfWeek(t), StartOfWeek(t));
    StartOfWeekUnique(EndOfWeek(EndOfWeek(t)), StartOfWeek(t));
  }

  /** Two instants lie in the same Monday-first week exactly when their week starts agree. */
  lemma SameWeek(x: int, t: int)
    ensures Within(x, StartOfWeek(t), EndOfWeek(t)) <==> StartOfWeek(x) == StartOfWeek(t)
  {
    if Within(x, StartOfWeek(t), EndOfWeek(t)) {
      StartOfWeekUnique(x, StartOfWeek(t));
    }
  }

  /** Shifting by one week shifts the week boundaries by one week. */
  lemma StartOfWeekShift(t: int)
    ensures StartOfWeek(AddWeeks(t, 1)) == StartOfWeek(t) + WeekMs
  {
    var s := StartOfWeek(t);
    assert s == MidnightOf(DayOf(s));
    assert s + WeekMs == MidnightOf(DayOf(s) + 7);
    assert WeekdayIndex(DayOf(s) + 7) == WeekdayIndex(DayOf(s));
    assert AddWeeks(t, 1) == t + WeekMs;
    StartOfWeekUnique(t + WeekMs, s + WeekMs);
  }

  // ----- Gregorian calendar (proleptic, as JavaScript's Date uses) -----

  /** A calendar date: year, month 1..12, day of month. */
  datatype Date = Date(year: int, month: int, day: int)

  predicate IsLeapYear(y: int) {
    y % 4 == 0 && (y % 100 != 0 || y % 400 == 0)
  }

  function YearLength(y: int): int {
    if IsLeapYear(y) then 366 else 365
  }

  /** Leap years in 1..n (counting backwards for negative n, consistently). */
  function Leaps(n: int): int {
    n / 4 - n / 100 + n / 400
  }

  /** Day number of January 1st of year `y`. */
  function YearStart(y: int): int {
    365 * (y - 1970) + Leaps(y - 1) - Leaps(1969)
  }

  /** Consecutive years start one year length apart. */
  lemma YearStartStep(y: int)
    ensures YearStart(y + 1) == YearStart(y) + YearLength(y)
  {
    DivStep4(y);
    DivStep100(y);
    DivStep400(y);
  }

  /** Years divisible by 4 are counted exactly once more at `y` than at `y - 1`. */
  lemma DivStep4(y: int)
    ensures y / 4 - (y - 1) / 4 == if y % 4 == 0 then 1 else 0
  {
  }

  /** Centuries, likewise; a century year is also divisible by 4. */
  lemma DivStep100(y: int)
    ensures y / 100 - (y - 1) / 100 == if y % 100 == 0 then 1 else 0
    ensures y % 100 == 0 ==> y % 4 == 0
  {
    var q, r := y / 100, y % 100;
    assert y == 100 * q + r && 0 <= r < 100;
    if r == 0 {
      assert y - 1 == 100 * (q - 1) + 99;
      assert y == 4 * (25 * q);
    } else {
      assert y - 1 == 100 * q + (r - 1);
    }
  }

  /** Multiples of 400, likewise; such a year is also a century year. */
  lemma DivStep400(y: int)
    ensures y / 400 - (y - 1) / 400 == if y % 400 == 0 then 1 else 0
    ensures y % 400 == 0 ==> y % 100 == 0
  {
    var q, r := y / 400, y % 400;
    assert y == 400 * q + r && 0 <= r < 400;
    if r == 0 {
      assert y - 1 == 400 * (q - 1) + 399;
      assert y == 100 * (4 * q);
    } else {
      assert y - 1 == 400 * q + (r - 1);
    }
  }

  /** Later years start later. */
  lemma {:induction false} YearStartMonotone(a: int, b: int)
    requires a < b
    ensures YearStart(a + 1) <= YearStart(b)
    decreases b - a
  {
    YearStartStep(a);
    if a + 1 < b {
      YearStartMonotone(a + 1, b);
      YearStartStep(a + 1);
    }
  }

  /** Days before the first of month `m` in a common (non-leap) year. */
  function CommonDaysBefore(m: int): int
    requires 1 <= m <= 13
  {
    match m
    case 1 => 0
    case 2 => 31
    case 3 => 59
    case 4 => 90
    case 5 => 120
    case 6 => 151
    case 7 => 181
    case 8 => 212
    case 9 => 243
    case 10 => 273
    case 11 => 304
    case 12 => 334
    case _ => 365
  }

  /** Days of year `y` before the first of month `m` (m = 13 gives the whole year). */
  function DaysBeforeMonth(y: int, m: int): int
    requires 1 <= m <= 13
  {
    CommonDaysBefore(m) + (if m > 2 && IsLeapYear(y) then 1 else 0)
  }

  /** Number of days in month `m` of year `y`. */
  function MonthLength(y: int, m: int): (r: int)
    requires 1 <= m <= 12
    ensures 28 <= r <= 31
    ensures m == 2 ==> (r == 29 <==> IsLeapYear(y))
  {
    DaysBeforeMonth(y, m + 1) - DaysBeforeMonth(y, m)
  }

  predicate ValidDate(d: Date) {
    1 <= d.month <= 12 && 1 <= d.day <= MonthLength(d.year, d.month)
  }

  /** Day number of a calendar date (days since 1970-01-01). */
  function DayNumber(d: Date): int
    requires ValidDate(d)
  {
    YearStart(d.year) + DaysBeforeMonth(d.year, d.month) + d.day - 1
  }

  /** The year containing day `n`, searching upwards from year `y`. */
  function YearFrom(n: int, y: int): (r: int)
    requires YearStart(y) <= n
    ensures YearStart(r) <= n < YearStart(r + 1)
    decreases n - YearStart(y)
  {
    YearStartStep(y);
    if n < YearStart(y + 1) then y else YearFrom(n, y + 1)
  }

  /** The year containing day `n`, searching downwards from year `y` first when needed. */
  function YearBelow(n: int, y: int): (r: int)
    ensures YearStart(r) <= n < YearStart(r + 1)
    decreases YearStart(y) - n
  {
    if YearStart(y) <= n then YearFrom(n, y)
    else
      YearStartStep(y - 1);
      YearBelow(n, y - 1)
  }

  /** The month of year `y` containing day `n`, searching downwards from month `m`. */
  function MonthFrom(n: int, y: int, m: int): (r: int)
    requires 1 <= m <= 12
    requires YearStart(y) <= n < YearStart(y) + DaysBeforeMonth(y, m + 1)
    ensures 1 <= r <= m
    ensures YearStart(y) + DaysBeforeMonth(y, r) <= n < YearStart(y) + DaysBeforeMonth(y, r + 1)
  {
    if YearStart(y) + DaysBeforeMonth(y, m) <= n then m else MonthFrom(n, y, m - 1)
  }

  /** The calendar date of day number `n`. */
  function DateOf(n: int): (d: Date)
    ensures ValidDate(d) && DayNumber(d) == n
  {
    var y := YearBelow(n, 1970);
    YearStartStep(y);
    var m := MonthFrom(n, y, 12);
    Date(y, m, n - YearStart(y) - DaysBeforeMonth(y, m) + 1)
  }

  /** Only one year contains a given day. */
  lemma YearUnique(a: int, b: int, n: int)
    requires YearStart(a) <= n < YearStart(a + 1)
    requires YearStart(b) <= n < YearStart(b + 1)
    ensures a == b
  {
    if a < b {
      YearStartMonotone(a, b);
    } else if b < a {
      YearStartMonotone(b, a);
    }
  }

  /** Only one month of a year contains a given day of that year. */
  lemma MonthUnique(y: int, a: int, b: int, k: int)
    requires 1 <= a <= 12 && 1 <= b <= 12
    requires DaysBeforeMonth(y, a) <= k < DaysBeforeMonth(y, a + 1)
    requires DaysBeforeMonth(y, b) <= k < DaysBeforeMonth(y, b + 1)
    ensures a == b
  {
  }

  /** Each day number names exactly one calendar date. */
  lemma DateRoundTrip(d: Date)
    requires ValidDate(d)
    ensures DateOf(DayNumber(d)) == d
  {
    var n := DayNumber(d);
    var e := DateOf(n);
    var ys := YearStart(d.year);
    assert ys + DaysBeforeMonth(d.year, d.month) <= n < ys + DaysBeforeMonth(d.year, d.month + 1);
    YearStartStep(d.year);
    YearStartStep(e.year);
    YearUnique(e.year, d.year, n);
    MonthUnique(d.year, e.month, d.month, n - ys);
  }

  /** 00:00:00.000 on the first day of the month containing `t`: date-fns startOfMonth. */
  function StartOfMonth(t: int): (r: int)
    ensures r <= t && r % DayMs == 0
    ensures var c := DateOf(DayOf(t)); DateOf(DayOf(r)) == Date(c.year, c.month, 1)
  {
    var c := DateOf(DayOf(t));
    var first := Date(c.year, c.month, 1);
    DateRoundTrip(first);
    MidnightOf(DayNumber(first))
  }

  /** 23:59:59.999 on the last day of the month containing `t`: date-fns endOfMonth. */
  function EndOfMonth(t: int): (r: int)
    ensures t <= r && (r + 1) % DayMs == 0
    ensures var c := DateOf(DayOf(t)); DateOf(DayOf(r)) == Date(c.year, c.month, MonthLength(c.year, c.month))
  {
    var c := DateOf(DayOf(t));
    var last := Date(c.year, c.month, MonthLength(c.year, c.month));
    DateRoundTrip(last);
    assert DayNumber(c) <= DayNumber(last);
    LastInstantOf(DayNumber(last))
  }

  /** 00:00:00.000 on January 1st of the year containing `t`: date-fns startOfYear. */
  function StartOfYear(t: int): (r: int)
    ensures r <= t && r % DayMs == 0
    ensures DateOf(DayOf(r)) == Date(DateOf(DayOf(t)).year, 1, 1)
  {
    var c := DateOf(DayOf(t));
    var first := Date(c.year, 1, 1);
    DateRoundTrip(first);
    MidnightOf(DayNumber(first))
  }

  /** 23:59:59.999 on December 31st of the year containing `t`: date-fns endOfYear. */
  function EndOfYear(t: int): (r: int)
    ensures t <= r && (r + 1) % DayMs == 0
    ensures DateOf(DayOf(r)) == Date(DateOf(DayOf(t)).year, 12, 31)
  {
    var c := DateOf(DayOf(t));
    var last := Date(c.year, 12, 31);
    DateRoundTrip(last);
    assert DayNumber(c) <= DayNumber(last) by {
      YearStartStep(c.year);
    }
    LastInstantOf(DayNumber(last))
  }

  /** The calendar is anchored correctly: 2000-01-01 is day 10957 and 2025-06-09 a Monday. */
  lemma CalendarAnchors()
    ensures DayNumber(Date(2000, 1, 1)) == 10957
    ensures WeekdayIndex(DayNumber(Date(2025, 6, 9))) == 0
  {
  }
}

=== FILE: categorystore.dfy ===
/** The category store of lib/store/category-store.ts: an ordered list of categories. */
module CategoryStore {
  import opened Types
  import opened Seqs

  /** The name of the default category ("to do"). */
  const DefaultCategoryName: string := "할일"

  /** No two categories share an id. */
  predicate UniqueIds(cs: seq<Category>) {
    forall i, j :: 0 <= i < j < |cs| ==> cs[i].id != cs[j].id
  }

  /** Some category carries `id`. */
  predicate HasId(cs: seq<Category>, id: string) {
    exists i :: 0 <= i < |cs| && cs[i].id == id
  }

  /** The seed list: ids '1', '2', '3' in that order, the default category first, all created at `now`. */
  function Seed(now: int): (r: seq<Category>)
    ensures |r| == 3 && UniqueIds(r)
    ensures r[0].id == "1" && r[1].id == "2" && r[2].id == "3"
    ensures r[0].name == DefaultCategoryName
    ensures forall i :: 1 <= i < |r| ==> r[i].name != DefaultCategoryName
    ensures forall i :: 0 <= i < |r| ==> r[i].createdAt == now
  {
    [Category("1", "할일", now), Category("2", "설치", now), Category("3", "세무관련", now)]
  }

  /** Appends one category with the given (unchecked) name and a fresh id; the prefix is unchanged. */
  function AddCategory(cs: seq<Category>, name: string, id: string, now: int): (r: seq<Category>)
    ensures |r| == |cs| + 1 && r[..|cs|] == cs
    ensures r[|cs|].id == id && r[|cs|].name == name && r[|cs|].createdAt == now
    ensures UniqueIds(cs) && !HasId(cs, id) ==> UniqueIds(r)
  {
    cs + [Category(id, name, now)]
  }

  /** Removes every category with this id, keeping the others in order. */
  function DeleteCategory(cs: seq<Category>, id: string): (r: seq<Category>)
    ensures !HasId(r, id)
    ensures forall c :: multiset(r)[c] == if c.id != id then multiset(cs)[c] else 0
    ensures IsSubsequence(r, cs)
  {
    var p := (c: Category) => c.id != id;
    FilterMultiset(cs, p);
    FilterIsSubsequence(cs, p);
    Filter(cs, p)
  }

  /** Deleting an unknown id changes nothing. */
  lemma DeleteUnknownCategory(cs: seq<Category>, id: string)
    requires !HasId(cs, id)
    ensures DeleteCategory(cs, id) == cs
  {
    FilterAll(cs, (c: Category) => c.id != id);
  }

  /** Nothing protects the default category: deleting id '1' from the seed list removes it. */
  lemma DefaultCategoryIsDeletable(now: int)
    ensures var r := DeleteCategory(Seed(now), "1");
      |r| == 2 && forall i :: 0 <= i < |r| ==> r[i].name != DefaultCategoryName
  {
    var s := Seed(now);
    var r := DeleteCategory(s, "1");
    var m := multiset{s[1], s[2]};
    assert multiset(s) == multiset{s[0]} + m;
    forall c
      ensures multiset(r)[c] == m[c]
    {
    }
    assert multiset(r) == m;
    assert |r| == |multiset(r)| == 2;
    forall i | 0 <= i < |r|
      ensures r[i].name != DefaultCategoryName
    {
      assert r[i] in multiset(r);
    }
  }

  /** Renames the categories with this id; ids, creation instants and order are unchanged. */
  function UpdateCategory(cs: seq<Category>, id: string, name: string): (r: seq<Category>)
    ensures |r| == |cs|
    ensures forall i :: 0 <= i < |cs| ==> r[i].id == cs[i].id && r[i].createdAt == cs[i].createdAt
    ensures forall i :: 0 <= i < |cs| ==> r[i].name == if cs[i].id == id then name else cs[i].name
  {
    seq(|cs|, i requires 0 <= i < |cs| => if cs[i].id == id then cs[i].(name := name) else cs[i])
  }

  /** Replaces the list wholesale with the caller's list. */
  function ReorderCategories(cs: seq<Category>, xs: seq<Category>): (r: seq<Category>)
    ensures r == xs
  {
    xs
  }

  /** No permutation check: a reorder can drop and duplicate categories. */
  lemma ReorderIsUnchecked(now: int)
    ensures var s := Seed(now);
      var r := ReorderCategories(s, [s[1], s[1]]);
      !UniqueIds(r) && multiset(r) != multiset(s)
  {
    var s := Seed(now);
    var r := [s[1], s[1]];
    assert r[0].id == r[1].id;
    assert s[0] != s[1];
    assert multiset(r)[s[0]] == 0;
    assert multiset(s)[s[0]] > 0;
  }
}

=== FILE: periodview.dfy ===
/**
 * The period aggregator of components/dashboard/period-view.tsx: date ranges per period,
 * bucketing todos into a period, the category pre-filter, the completion rate and the
 * delay classifiers. The current instant is a parameter.
 */
module PeriodView {
  import opened Wrappers
  import opened Types
  import opened Seqs
  import opened Calendar
  import Text
  import TodoStore

  datatype DateRange = DateRange(start: int, end: int)

  /** `r` runs from Monday 00:00 to Sunday 23:59:59.999 of the week of `now`. */
  predicate IsWeekRange(now: int, r: DateRange) {
    && r.start <= now <= r.end
    && r.start % DayMs == 0 && WeekdayIndex(DayOf(r.start)) == 0
    && r.end == r.start + WeekMs - 1
  }

  /** `r` runs from the first to the last instant of the calendar month of `now`. */
  predicate IsMonthRange(now: int, r: DateRange) {
    var c := DateOf(DayOf(now));
    && r.start <= now <= r.end
    && r.start % DayMs == 0 && (r.end + 1) % DayMs == 0
    && DateOf(DayOf(r.start)) == Date(c.year, c.month, 1)
    && DateOf(DayOf(r.end)) == Date(c.year, c.month, MonthLength(c.year, c.month))
  }

  /** `r` runs from the first to the last instant of the calendar year of `now`. */
  predicate IsYearRange(now: int, r: DateRange) {
    var c := DateOf(DayOf(now));
    && r.start <= now <= r.end
    && r.start % DayMs == 0 && (r.end + 1) % DayMs == 0
    && DateOf(DayOf(r.start)) == Date(c.year, 1, 1) && DateOf(DayOf(r.end)) == Date(c.year, 12, 31)
  }

  /** The canonical range of the period containing `now`, from its first millisecond to its last. */
  function GetDateRange(period: Period, now: int): (r: DateRange)
    ensures r.start <= now <= r.end
    ensures period == Week ==> IsWeekRange(now, r)
    ensures period == Month ==> IsMonthRange(now, r)
    ensures period == Year ==> IsYearRange(now, r)
  {
    match period
    case Week => WeekRange(now)
    case Month => MonthRange(now)
    case Year => YearRange(now)
  }

  function WeekRange(now: int): (r: DateRange)
    ensures IsWeekRange(now, r)
  {
    assert EndOfWeek(now) == StartOfWeek(now) + WeekMs - 1;
    DateRange(StartOfWeek(now), EndOfWeek(now))
  }

  function MonthRange(now: int): (r: DateRange)
    ensures IsMonthRange(now, r)
  {
    DateRange(StartOfMonth(now), EndOfMonth(now))
  }

  function YearRange(now: int): (r: DateRange)
    ensures IsYearRange(now, r)
  {
    DateRange(StartOfYear(now), EndOfYear(now))
  }

  /** The instant a todo is bucketed by: its due date, else its start date, else its creation. */
  function BucketDate(t: Todo): (d: int)
    ensures t.dueDate.Some? ==> d == t.dueDate.value
    ensures t.dueDate.None? && t.startDate.Some? ==> d == t.startDate.value
    ensures t.dueDate.None? && t.startDate.None? ==> d == t.createdAt
  {
    match t.dueDate
    case Some(d) => d
    case None => t.startDate.GetOr(t.createdAt)
  }

  /** The range widened outwards to whole Monday-first weeks. */
  function Widen(r: DateRange): (w: DateRange)
    ensures w.start <= r.start && r.end <= w.end
    ensures r.start - WeekMs < w.start && w.end < r.end + WeekMs
    ensures w.start % DayMs == 0 && WeekdayIndex(DayOf(w.start)) == 0
    ensures (w.end + 1) % DayMs == 0 && WeekdayIndex(DayOf(w.end)) == 6
  {
    DateRange(StartOfWeek(r.start), EndOfWeek(r.end))
  }

  /** Whether a todo's bucket date lies in the widened range, ends included. */
  predicate InWindow(t: Todo, r: DateRange) {
    var w := Widen(r);
    Within(BucketDate(t), w.start, w.end)
  }

  /**
   * The todos of the period containing `now`, in input order, together with the unwidened
   * range of the period.
   */
  function FilterTodosByPeriod(todos: seq<Todo>, period: Period, now: int): (r: PeriodResult)
    ensures var range := GetDateRange(period, now); r.start == range.start && r.end == range.end
    ensures forall i :: 0 <= i < |r.todos| ==> r.todos[i] in todos && InWindow(r.todos[i], GetDateRange(period, now))
    ensures forall i :: 0 <= i < |todos| && InWindow(todos[i], GetDateRange(period, now)) ==> todos[i] in r.todos
  {
    var range := GetDateRange(period, now);
    PeriodResult(Filter(todos, t => InWindow(t, range)), range.start, range.end)
  }

  /** The period's todos form an order-preserving subsequence of the input, keeping every copy of a todo in the window. */
  lemma FilterTodosByPeriodIsSubsequence(todos: seq<Todo>, period: Period, now: int)
    ensures IsSubsequence(FilterTodosByPeriod(todos, period, now).todos, todos)
    ensures forall t :: multiset(FilterTodosByPeriod(todos, period, now).todos)[t] == if InWindow(t, GetDateRange(period, now)) then multiset(todos)[t] else 0
  {
    var range := GetDateRange(period, now);
    FilterIsSubsequence(todos, t => InWindow(t, range));
    FilterMultiset(todos, t => InWindow(t, range));
  }

  /** For the week period the widening changes nothing: membership is exactly the current week. */
  lemma WeekWideningIsIdentity(t: Todo, now: int)
    ensures Widen(GetDateRange(Week, now)) == GetDateRange(Week, now)
    ensures InWindow(t, GetDateRange(Week, now)) <==> StartOfWeek(BucketDate(t)) == StartOfWeek(now)
  {
    WeekBoundsIdempotent(now);
    SameWeek(BucketDate(t), now);
  }

  /** For every period, anything inside the canonical range is inside the widened one. */
  lemma RangeInsideWindow(t: Todo, period: Period, now: int)
    ensures var r := GetDateRange(period, now);
      Within(BucketDate(t), r.start, r.end) ==> InWindow(t, r)
  {
  }

  /** The dashboard's category choice: 'all' keeps every todo, otherwise only that exact category. */
  function CategoryPreFilter(todos: seq<Todo>, selected: string): (r: seq<Todo>)
    ensures selected == "all" ==> r == todos
    ensures selected != "all" ==>
      && (forall i :: 0 <= i < |r| ==> r[i] in todos && r[i].categoryId == Some(selected))
      && (forall i :: 0 <= i < |todos| && todos[i].categoryId == Some(selected) ==> todos[i] in r)
    ensures selected != "all" ==> forall t :: multiset(r)[t] == if t.categoryId == Some(selected) then multiset(todos)[t] else 0
  {
    if selected == "all" then todos
    else
      var p := (t: Todo) => t.categoryId == Some(selected);
      FilterMultiset(todos, p);
      Filter(todos, p)
  }

  /**
   * `Math.round(completed / total * 100)`, or 0 for no todos: the nearest integer percentage,
   * halves rounded up, computed exactly.
   */
  function CompletionRate(completed: nat, total: nat): (r: int)
    ensures total == 0 ==> r == 0
    ensures total > 0 ==> 2 * total * r <= 200 * completed + total < 2 * total * (r + 1)
    ensures completed <= total ==> 0 <= r <= 100
  {
    if total > 0 then
      var q := (200 * completed + total) / (2 * total);
      RateBounds(completed, total, q);
      q
    else 0
  }

  /** Facts about the quotient behind the completion rate. */
  lemma RateBounds(completed: nat, total: nat, q: int)
    requires total > 0 && q == (200 * completed + total) / (2 * total)
    ensures 2 * total * q <= 200 * completed + total < 2 * total * (q + 1)
    ensures completed <= total ==> 0 <= q <= 100
  {
    var n, d := 200 * completed + total, 2 * total;
    var m := n % d;
    assert n == d * q + m && 0 <= m < d;
    assert d * (q + 1) == d * q + d;
    if completed <= total {
      assert n < d * 101;
      if q < 0 {
        MulMonotone(d, q, -1);
        assert false;
      }
      if q > 100 {
        MulMonotone(d, 101, q);
        assert false;
      }
    }
  }

  /** Multiplying by a positive number preserves order. */
  lemma MulMonotone(d: int, a: int, b: int)
    requires d > 0 && a <= b
    ensures d * a <= d * b
  {
    assert d * b - d * a == d * (b - a);
  }

  /** Sample figures: no todos is 0 %, two of four is 50 %, one of three is 33 %. */
  lemma CompletionRateExamples()
    ensures CompletionRate(0, 0) == 0 && CompletionRate(2, 4) == 50 && CompletionRate(1, 3) == 33
    ensures CompletionRate(1, 8) == 13
  {
  }

  /** The counters shown above the dashboard list. */
  datatype Progress = Progress(completedCount: nat, totalCount: nat, completionRate: int)

  predicate IsDone(t: Todo) {
    t.completed
  }

  predicate IsOpen(t: Todo) {
    !t.completed
  }

  /** The number of completed todos: together with the open ones they make up the whole list. */
  function CountCompleted(todos: seq<Todo>): (n: nat)
    ensures n <= |todos|
    ensures n + |Filter(todos, IsOpen)| == |todos|
  {
    CompletedSplit(todos);
    |Filter(todos, IsDone)|
  }

  /** Every todo is either completed or open, so the two filters split the list. */
  lemma {:induction false} CompletedSplit(todos: seq<Todo>)
    ensures |Filter(todos, IsDone)| + |Filter(todos, IsOpen)| == |todos|
  {
    if |todos| > 0 {
      CompletedSplit(todos[1..]);
    }
  }

  /** The dashboard's figures: category pre-filter, then the period, then the counts and the rate. */
  function PeriodProgress(todos: seq<Todo>, selected: string, period: Period, now: int): (p: Progress)
    ensures p.completedCount <= p.totalCount
    ensures p.totalCount == |FilterTodosByPeriod(CategoryPreFilter(todos, selected), period, now).todos|
    ensures 0 <= p.completionRate <= 100
    ensures p.totalCount == 0 ==> p.completionRate == 0
    ensures p.completedCount == CountCompleted(FilterTodosByPeriod(CategoryPreFilter(todos, selected), period, now).todos)
    ensures p.completionRate == CompletionRate(p.completedCount, p.totalCount)
  {
    var shown := FilterTodosByPeriod(CategoryPreFilter(todos, selected), period, now).todos;
    var c := CountCompleted(shown);
    Progress(c, |shown|, CompletionRate(c, |shown|))
  }

  // ----- Delay classifiers -----

  /** Background class of a todo row by its delay count. */
  function DelayColor(delayCount: Option<int>): (r: string)
    ensures r == "" <==> delayCount.None? || delayCount.value <= 0
    ensures delayCount == Some(1) ==> r == "bg-yellow-50"
    ensures delayCount == Some(2) ==> r == "bg-orange-50"
    ensures delayCount.Some? && delayCount.value >= 3 ==> r == "bg-red-50"
  {
    if delayCount.None? || delayCount.value <= 0 then ""
    else if delayCount.value == 1 then "bg-yellow-50"
    else if delayCount.value == 2 then "bg-orange-50"
    else "bg-red-50"
  }

  /** Text class of the delay label by the delay count. */
  function DelayTextColor(delayCount: Option<int>): (r: string)
    ensures r == "" <==> delayCount.None? || delayCount.value <= 0
    ensures delayCount == Some(1) ==> r == "text-yellow-800"
    ensures delayCount == Some(2) ==> r == "text-orange-800"
    ensures delayCount.Some? && delayCount.value >= 3 ==> r == "text-red-800"
  {
    if delayCount.None? || delayCount.value <= 0 then ""
    else if delayCount.value == 1 then "text-yellow-800"
    else if delayCount.value == 2 then "text-orange-800"
    else "text-red-800"
  }

  /** The suffix of the delay label ("weeks late"). */
  const DelaySuffix: string := "주 지연"

  /** The delay label: the count followed by the suffix, whichever branch produces it. */
  function DelayText(delayCount: int): (r: string)
    ensures r == Text.IntToString(delayCount) + DelaySuffix
  {
    assert Text.IntToString(1) == "1" && Text.IntToString(2) == "2";
    if delayCount == 1 then "1주 지연"
    else if delayCount == 2 then "2주 지연"
    else Text.IntToString(delayCount) + DelaySuffix
  }

  /** Different delay counts get different labels. */
  lemma DelayTextInjective(m: int, n: int)
    requires DelayText(m) == DelayText(n)
    ensures m == n
  {
    var a, b := Text.IntToString(m), Text.IntToString(n);
    assert a + DelaySuffix == b + DelaySuffix;
    assert |a| == |b|;
    assert a == (a + DelaySuffix)[..|a|];
    assert b == (b + DelaySuffix)[..|b|];
    Text.IntToStringInjective(m, n);
  }

  /** A todo the rollover moves (with a non-negative count before) is highlighted afterwards. */
  lemma RolledTodoIsHighlighted(t: Todo, now: int)
    requires TodoStore.RollsOver(t, now) && TodoStore.DelayOf(t) >= 0
    ensures DelayColor(TodoStore.Rolled(t, now).delayCount) != ""
    ensures DelayTextColor(TodoStore.Rolled(t, now).delayCount) != ""
  {
  }
}

=== FILE: seqs.dfy ===
/** Order-preserving filtering of sequences, the model of JavaScript's `Array.prototype.filter`. */
module Seqs {

  /** The elements of `s` satisfying `p`, in their original order. */
  function Filter<T>(s: seq<T>, p: T -> bool): (r: seq<T>)
    ensures |r| <= |s|
    ensures forall i :: 0 <= i < |r| ==> p(r[i])
    ensures forall i :: 0 <= i < |r| ==> r[i] in s
    ensures forall i :: 0 <= i < |s| && p(s[i]) ==> s[i] in r
  {
    if |s| == 0 then []
    else if p(s[0]) then [s[0]] + Filter(s[1..], p)
    else Filter(s[1..], p)
  }

  /** `a` can be obtained from `b` by deleting elements, keeping the order of the rest. */
  ghost predicate IsSubsequence<T>(a: seq<T>, b: seq<T>)
    decreases |b|
  {
    if |a| == 0 then true
    else if |b| == 0 then false
    else (a[0] == b[0] && IsSubsequence(a[1..], b[1..])) || IsSubsequence(a, b[1..])
  }

  /** Filtering keeps exactly the elements satisfying `p`, each as often as it occurs. */
  lemma {:induction false} FilterMultiset<T>(s: seq<T>, p: T -> bool)
    ensures forall x :: multiset(Filter(s, p))[x] == if p(x) then multiset(s)[x] else 0
  {
    if |s| > 0 {
      FilterMultiset(s[1..], p);
      assert s == [s[0]] + s[1..];
      assert multiset(s) == multiset{s[0]} + multiset(s[1..]);
    }
  }

  /** Filtering never reorders: the result is a subsequence of the input. */
  lemma {:induction false} FilterIsSubsequence<T>(s: seq<T>, p: T -> bool)
    ensures IsSubsequence(Filter(s, p), s)
  {
    if |s| > 0 {
      FilterIsSubsequence(s[1..], p);
      var r := Filter(s[1..], p);
      if p(s[0]) {
        assert Filter(s, p) == [s[0]] + r;
        assert ([s[0]] + r)[1..] == r;
      } else {
        SubsequenceSkip(r, s);
      }
    }
  }

  /** A subsequence of the tail of `b` is a subsequence of `b`. */
  lemma {:induction false} SubsequenceSkip<T>(a: seq<T>, b: seq<T>)
    requires |b| > 0 && IsSubsequence(a, b[1..])
    ensures IsSubsequence(a, b)
  {
  }

  /** A filter applied twice with the same predicate has no further effect. */
  lemma {:induction false} FilterIdempotent<T>(s: seq<T>, p: T -> bool)
    ensures Filter(Filter(s, p), p) == Filter(s, p)
  {
    if |s| > 0 {
      FilterIdempotent(s[1..], p);
      if p(s[0]) {
        var r := Filter(s[1..], p);
        assert ([s[0]] + r)[1..] == r;
      }
    }
  }

  /** Two filters applied one after the other commute, and equal one filter by the conjunction. */
  lemma {:induction false} FilterCommutes<T>(s: seq<T>, p: T -> bool, q: T -> bool)
    ensures Filter(Filter(s, p), q) == Filter(s, x => p(x) && q(x))
    ensures Filter(Filter(s, p), q) == Filter(Filter(s, q), p)
  {
    if |s| > 0 {
      FilterCommutes(s[1..], p, q);
      var rp := Filter(s[1..], p);
      var rq := Filter(s[1..], q);
      if p(s[0]) { assert ([s[0]] + rp)[1..] == rp; }
      if q(s[0]) { assert ([s[0]] + rq)[1..] == rq; }
    }
  }

  /** When every element passes, the filter is the identity. */
  lemma {:induction false} FilterAll<T>(s: seq<T>, p: T -> bool)
    requires forall i :: 0 <= i < |s| ==> p(s[i])
    ensures Filter(s, p) == s
  {
    if |s| > 0 {
      FilterAll(s[1..], p);
      assert s == [s[0]] + s[1..];
    }
  }

  /** Predicates that agree on every element of `s` filter it identically. */
  lemma {:induction false} FilterCongruent<T>(s: seq<T>, p: T -> bool, q: T -> bool)
    requires forall i :: 0 <= i < |s| ==> p(s[i]) == q(s[i])
    ensures Filter(s, p) == Filter(s, q)
  {
    if |s| > 0 {
      FilterCongruent(s[1..], p, q);
    }
  }
}

=== FILE: text.dfy ===
/** String helpers the source gets from JavaScript: `String.prototype.trim` and number-to-text conversion. */
module Text {

  /**
   * The characters `trim` removes: ECMAScript WhiteSpace (tab, vertical tab, form feed,
   * space, no-break space, byte-order mark and the Unicode space separators) and
   * LineTerminator (line feed, carriage return, line and paragraph separators).
   */
  predicate IsWhitespace(c: char) {
    var u := c as int;
    || u == 0x09 || u == 0x0A || u == 0x0B || u == 0x0C || u == 0x0D || u == 0x20
    || u == 0xA0 || u == 0x1680 || (0x2000 <= u <= 0x200A)
    || u == 0x2028 || u == 0x2029 || u == 0x202F || u == 0x205F || u == 0x3000 || u == 0xFEFF
  }

  /** A string with nothing but whitespace in it (the empty string included). */
  predicate IsBlank(s: string) {
    forall i :: 0 <= i < |s| ==> IsWhitespace(s[i])
  }

  /** `r` occurs in `s` starting at index `i`. */
  predicate IsSliceAt(r: string, s: string, i: int) {
    0 <= i <= |s| - |r| && r == s[i..i + |r|]
  }

  /** `s` with its leading whitespace removed. */
  function TrimStart(s: string): (r: string)
    ensures |r| <= |s| && r == s[|s| - |r|..]
    ensures |r| > 0 ==> !IsWhitespace(r[0])
    ensures forall k :: 0 <= k < |s| - |r| ==> IsWhitespace(s[k])
  {
    if |s| > 0 && IsWhitespace(s[0]) then TrimStart(s[1..]) else s
  }

  /** `s` with its trailing whitespace removed. */
  function TrimEnd(s: string): (r: string)
    ensures |r| <= |s| && r == s[..|r|]
    ensures |r| > 0 ==> !IsWhitespace(r[|r| - 1])
    ensures forall k :: |r| <= k < |s| ==> IsWhitespace(s[k])
  {
    if |s| > 0 && IsWhitespace(s[|s| - 1]) then TrimEnd(s[..|s| - 1]) else s
  }

  /** JavaScript's `s.trim()`: a contiguous slice of `s` with no whitespace at either end. */
  function Trim(s: string): (r: string)
    ensures |r| > 0 ==> !IsWhitespace(r[0]) && !IsWhitespace(r[|r| - 1])
    ensures exists i :: IsSliceAt(r, s, i)
    ensures r == [] <==> IsBlank(s)
  {
    var a := TrimStart(s);
    var r := TrimEnd(a);
    assert IsSliceAt(r, s, |s| - |a|);
    TrimmedEmptyIsBlank(s, a, r);
    r
  }

  /** When both trims together remove everything, every character was whitespace. */
  lemma TrimmedEmptyIsBlank(s: string, a: string, r: string)
    requires a == TrimStart(s) && r == TrimEnd(a)
    ensures r == [] ==> IsBlank(s)
  {
    if r == [] {
      assert a == [];
    }
  }

  /** Only whitespace is removed: what `Trim` drops before and after the kept slice is blank. */
  lemma TrimRemovesOnlyWhitespace(s: string)
    ensures exists i :: IsSliceAt(Trim(s), s, i) && IsBlank(s[..i]) && IsBlank(s[i + |Trim(s)|..])
  {
    var a := TrimStart(s);
    var r := TrimEnd(a);
    var i := |s| - |a|;
    assert IsSliceAt(r, s, i);
    assert IsBlank(s[..i]);
    assert s[i + |r|..] == a[|r|..];
    assert IsBlank(s[i + |r|..]);
  }

  /** Trimming an already trimmed string changes nothing. */
  lemma TrimIdempotent(s: string)
    ensures Trim(Trim(s)) == Trim(s)
  {
    var r := Trim(s);
    assert TrimStart(r) == r;
    assert TrimEnd(r) == r;
  }

  /** The digit character for `d`. */
  function DigitChar(d: nat): char
    requires d < 10
  {
    "0123456789"[d]
  }

  /** The value of a digit character. */
  function DigitValue(c: char): nat
    requires IsDigit(c)
  {
    (c as int - '0' as int) as nat
  }

  predicate IsDigit(c: char) {
    '0' <= c <= '9'
  }

  /** Decimal text of a natural number without leading zeros: `n.toString()` for safe integers. */
  function NatToString(n: nat): (r: string)
    ensures |r| >= 1
    ensures forall i :: 0 <= i < |r| ==> IsDigit(r[i])
    ensures r[0] == '0' ==> n == 0 && r == "0"
  {
    if n < 10 then [DigitChar(n)] else NatToString(n / 10) + [DigitChar(n % 10)]
  }

  /** Decimal text of an integer, with a minus sign when negative: `n.toString()` for safe integers. */
  function IntToString(n: int): (r: string)
    ensures |r| >= 1
    ensures n < 0 <==> r[0] == '-'
    ensures n < 0 ==> |r| >= 2 && r[1] != '0' && forall i :: 1 <= i < |r| ==> IsDigit(r[i])
    ensures n >= 0 ==> (forall i :: 0 <= i < |r| ==> IsDigit(r[i])) && (r[0] == '0' ==> n == 0 && r == "0")
  {
    if n < 0 then "-" + NatToString(-n) else NatToString(n)
  }

  /** The value of a string of decimal digits. */
  function ParseNat(s: string): nat
    requires forall i :: 0 <= i < |s| ==> IsDigit(s[i])
  {
    if |s| == 0 then 0 else ParseNat(s[..|s| - 1]) * 10 + DigitValue(s[|s| - 1])
  }

  /** Reading the decimal text of `n` gives `n` back. */
  lemma {:induction false} NatToStringRoundTrip(n: nat)
    ensures ParseNat(NatToString(n)) == n
  {
    var r := NatToString(n);
    if n >= 10 {
      NatToStringRoundTrip(n / 10);
      assert r[..|r| - 1] == NatToString(n / 10);
    }
  }

  /** Number text has no whitespace to trim: trimming it changes nothing and it is never blank. */
  lemma IntToStringIsTrimmed(n: int)
    ensures Trim(IntToString(n)) == IntToString(n)
    ensures !IsBlank(IntToString(n))
  {
    var s := IntToString(n);
    assert forall i :: 0 <= i < |s| ==> !IsWhitespace(s[i]);
    assert TrimStart(s) == s;
    assert TrimEnd(s) == s;
    assert !IsWhitespace(s[0]);
  }

  /** Distinct numbers have distinct decimal text. */
  lemma IntToStringInjective(m: int, n: int)
    requires IntToString(m) == IntToString(n)
    ensures m == n
  {
    if m < 0 {
      assert n < 0;
      SignedDigits(m);
      SignedDigits(n);
    } else {
      assert n >= 0;
      NatToStringRoundTrip(m);
      NatToStringRoundTrip(n);
    }
  }

  /** The digits after the minus sign read back as the magnitude. */
  lemma SignedDigits(m: int)
    requires m < 0
    ensures var t := IntToString(m); (forall i :: 1 <= i < |t| ==> IsDigit(t[i])) && ParseNat(t[1..]) == -m
  {
    var d := NatToString(-m);
    NatToStringRoundTrip(-m);
    assert IntToString(m) == "-" + d;
    assert ("-" + d)[1..] == d;
  }
}

=== FILE: todofilters.dfy ===
/**
 * The filter widgets of components/todo/todo-filters.tsx: each handler copies the current
 * options, changes one field from the widget's value, and hands the whole object to the
 * store's setFilterOptions.
 */
module TodoFilters {
  import opened Wrappers
  import opened Types
  import CategoryStore
  import TodoStore

  /** Category select: 'all' or an id that is not a known category clears the option. */
  function OnCategoryChange(o: FilterOptions, value: string, cs: seq<Category>): (r: FilterOptions)
    ensures r.(categoryId := o.categoryId) == o
    ensures r.categoryId.Some? <==> value != "all" && CategoryStore.HasId(cs, value)
    ensures r.categoryId.Some? ==> r.categoryId.value == value
  {
    if value == "all" then o.(categoryId := None)
    else if exists i :: 0 <= i < |cs| && cs[i].id == value then o.(categoryId := Some(value))
    else o.(categoryId := None)
  }

  /** Priority select: 'all' clears the option, a priority name selects that priority. */
  function OnPriorityChange(o: FilterOptions, value: string): (r: FilterOptions)
    requires value == "all" || ParsePriority(value).Some?
    ensures r.(priority := o.priority) == o
    ensures r.priority.None? <==> value == "all"
    ensures r.priority.Some? ==> PriorityName(r.priority.value) == value
  {
    o.(priority := if value == "all" then None else ParsePriority(value))
  }

  /** Start date input: a cleared input (`''`) clears the option, a picked day sets it. */
  function OnStartDateChange(o: FilterOptions, day: Option<int>): (r: FilterOptions)
    ensures r.(startDate := o.startDate) == o
    ensures day.None? ==> r.startDate.None?
    ensures day.Some? ==> r.startDate == day
  {
    o.(startDate := day)
  }

  /** End date input: a cleared input (`''`) clears the option, a picked day sets it. */
  function OnEndDateChange(o: FilterOptions, day: Option<int>): (r: FilterOptions)
    ensures r.(endDate := o.endDate) == o
    ensures day.None? ==> r.endDate.None?
    ensures day.Some? ==> r.endDate == day
  {
    o.(endDate := day)
  }

  /** "Show completed" checkbox: the option becomes present with the box's state. */
  function OnShowCompletedChange(o: FilterOptions, checked: bool): (r: FilterOptions)
    ensures r.(showCompleted := o.showCompleted) == o
    ensures r.showCompleted == Some(checked)
  {
    o.(showCompleted := Some(checked))
  }

  /**
   * Handing a handler's result to the store makes it the store's options exactly, and the
   * filtered view follows: whatever one field the handler changed, the others are preserved.
   */
  lemma HandlerThroughStore(s: TodoStore.State, o: FilterOptions)
    ensures var r := TodoStore.SetFilterOptions(s, TodoStore.FullPatch(o));
      r.filterOptions == o && r.todos == s.todos && TodoStore.Consistent(r)
  {
    TodoStore.MergeOptionsLaws(s.filterOptions, o, TodoStore.FullPatch(o));
  }

  /** Choosing a category that exists and then storing the result shows only that category's todos. */
  lemma CategorySelectionFilters(s: TodoStore.State, value: string, cs: seq<Category>)
    requires value != "all" && value != "" && CategoryStore.HasId(cs, value)
    ensures var r := TodoStore.SetFilterOptions(s, TodoStore.FullPatch(OnCategoryChange(s.filterOptions, value, cs)));
      forall t :: t in r.filteredTodos ==> t.categoryId == Some(value)
  {
    var o := OnCategoryChange(s.filterOptions, value, cs);
    HandlerThroughStore(s, o);
    TodoStore.FilterKeepsOnlyMatching(s.todos, o);
  }
}

=== FILE: todoform.dfy ===
/**
 * The decision logic of the creation form (components/todo/todo-form.tsx, handleSubmit):
 * raw form fields become either a rejection or the input handed to the store's addTodo.
 */
module TodoForm {
  import opened Wrappers
  import opened Types
  import opened Calendar
  import Text
  import CategoryStore
  import TodoStore

  /**
   * The form's fields. The date inputs hold '' or a 'yyyy-MM-dd' day, modelled as an optional
   * day number; the category select holds nothing, 'none' or a category id.
   */
  datatype FormFields = FormFields(
    title: string,
    description: string,
    priority: Priority,
    startDay: Option<int>,
    dueDay: Option<int>,
    category: Option<string>)

  datatype Rejection = BlankTitle | StartAfterDue

  datatype Submission = Rejected(reason: Rejection) | Submitted(input: CreateTodoInput)

  /** Index of the first category named `name`, or -1: `Array.prototype.findIndex`. */
  function FindNamed(cs: seq<Category>, name: string): (k: int)
    ensures -1 <= k < |cs|
    ensures k >= 0 ==> cs[k].name == name && forall j :: 0 <= j < k ==> cs[j].name != name
    ensures k == -1 ==> forall j :: 0 <= j < |cs| ==> cs[j].name != name
  {
    if |cs| == 0 then -1
    else if cs[0].name == name then 0
    else
      var k := FindNamed(cs[1..], name);
      if k == -1 then -1 else k + 1
  }

  /** The id of the first category named as the default one, if there is such a category. */
  function DefaultCategoryId(cs: seq<Category>): (r: Option<string>)
    ensures r.None? <==> forall j :: 0 <= j < |cs| ==> cs[j].name != CategoryStore.DefaultCategoryName
    ensures r.Some? ==> exists j :: (0 <= j < |cs| && cs[j].name == CategoryStore.DefaultCategoryName && cs[j].id == r.value
      && forall k :: 0 <= k < j ==> cs[k].name != CategoryStore.DefaultCategoryName)
  {
    var k := FindNamed(cs, CategoryStore.DefaultCategoryName);
    if k == -1 then None else Some(cs[k].id)
  }

  /** With the seed categories the default resolves to id '1'. */
  lemma SeedDefaultIsFirst(now: int)
    ensures DefaultCategoryId(CategoryStore.Seed(now)) == Some("1")
  {
  }

  /** 'none', an empty or an unset selection means the default category; any other id is kept. */
  function ResolveCategory(choice: Option<string>, cs: seq<Category>): (r: Option<string>)
    ensures choice.None? || choice == Some("") || choice == Some("none") ==> r == DefaultCategoryId(cs)
    ensures choice.Some? && choice.value != "" && choice.value != "none" ==> r == choice
  {
    if choice == Some("none") then DefaultCategoryId(cs)
    else if choice.None? || choice.value == "" then DefaultCategoryId(cs)
    else choice
  }

  /** Local midnight of an optional day: `new Date(day + 'T00:00:00')`, absent when the field is empty. */
  function MidnightOpt(day: Option<int>): (r: Option<int>)
    ensures r.Some? <==> day.Some?
    ensures r.Some? ==> DayOf(r.value) == day.value && r.value % DayMs == 0
  {
    match day
    case None => None
    case Some(d) => Some(MidnightOf(d))
  }

  /**
   * Submitting the form: a blank title is ignored, a start day after the due day is refused,
   * otherwise the fields are normalised into a creation input.
   */
  function HandleSubmit(f: FormFields, cs: seq<Category>): (r: Submission)
    ensures r == Rejected(BlankTitle) <==> Text.IsBlank(f.title)
    ensures r == Rejected(StartAfterDue) <==>
      !Text.IsBlank(f.title) && f.startDay.Some? && f.dueDay.Some? && f.startDay.value > f.dueDay.value
    ensures r.Submitted? ==>
      var i := r.input;
      && i.title == f.title && i.priority == f.priority
      && (i.description.None? <==> Text.IsBlank(f.description))
      && (i.description.Some? ==> i.description.value == Str(Text.Trim(f.description)))
      && i.startDate == MidnightOpt(f.startDay) && i.dueDate == MidnightOpt(f.dueDay)
      && i.categoryId == ResolveCategory(f.category, cs)
      && (i.startDate.Some? && i.dueDate.Some? ==> i.startDate.value <= i.dueDate.value)
  {
    if Text.Trim(f.title) == "" then Rejected(BlankTitle)
    else if f.startDay.Some? && f.dueDay.Some? && f.startDay.value > f.dueDay.value then Rejected(StartAfterDue)
    else
      var d := Text.Trim(f.description);
      Submitted(CreateTodoInput(
        f.title,
        if d == "" then None else Some(Str(d)),
        f.priority,
        MidnightOpt(f.startDay),
        MidnightOpt(f.dueDay),
        ResolveCategory(f.category, cs)))
  }

  /** The day 2025-06-10 as a start and 2025-06-05 as a due day is refused, so nothing is added. */
  lemma StartAfterDueExample(title: string, cs: seq<Category>)
    requires !Text.IsBlank(title)
    ensures var f := FormFields(title, "", Medium,
        Some(DayNumber(Date(2025, 6, 10))), Some(DayNumber(Date(2025, 6, 5))), None);
      HandleSubmit(f, cs) == Rejected(StartAfterDue)
  {
  }

  /**
   * Form and store together: an accepted submission adds one todo whose description is the
   * trimmed text unless that is empty or exactly '0', and whose start is not after its due date.
   */
  lemma SubmitThenAdd(s: TodoStore.State, f: FormFields, cs: seq<Category>, id: string, now: int)
    requires HandleSubmit(f, cs).Submitted?
    ensures var r := TodoStore.AddTodo(s, HandleSubmit(f, cs).input, id, now);
      var t := r.todos[|s.todos|];
      && t.title == f.title
      && t.description == (var d := Text.Trim(f.description); if d == "" || d == "0" then None else Some(d))
      && (t.startDate.Some? && t.dueDate.Some? ==> t.startDate.value <= t.dueDate.value)
  {
    var d := Text.Trim(f.description);
    Text.TrimIdempotent(f.description);
    if d != "" {
      assert !Text.IsBlank(d);
    }
  }
}

=== FILE: todostore.dfy ===
/**
 * The todo store of lib/store/todo-store.ts as an explicit state record: every operation
 * takes the current state and returns the next one. Fresh ids and the current instant,
 * which the source draws from crypto.randomUUID() and new Date(), are parameters.
 */
module TodoStore {
  import opened Wrappers
  import opened Types
  import opened Seqs
  import Text
  import opened Calendar

  /** Store state: the canonical todos, the derived filtered view, and the active filters. */
  datatype State = State(todos: seq<Todo>, filteredTodos: seq<Todo>, filterOptions: FilterOptions)

  // ----- Filter engine -----

  /** A non-empty category option keeps only todos of exactly that category. */
  predicate CategoryOk(t: Todo, o: FilterOptions) {
    match o.categoryId
    case None => true
    case Some(c) => c == "" || t.categoryId == Some(c)
  }

  predicate PriorityOk(t: Todo, o: FilterOptions) {
    o.priority.None? || t.priority == o.priority.value
  }

  /** Completed todos are shown only when `showCompleted` is present and true. */
  predicate CompletionOk(t: Todo, o: FilterOptions) {
    o.showCompleted == Some(true) || !t.completed
  }

  /** The instant compared against the window start: the start date, else the creation instant. */
  function EffectiveStart(t: Todo): int {
    t.startDate.GetOr(t.createdAt)
  }

  /** The instant compared against the window end: the due date, else the creation instant. */
  function EffectiveDue(t: Todo): int {
    t.dueDate.GetOr(t.createdAt)
  }

  /** 23:59:59.000 of day `day` (the source appends 'T23:59:59', so milliseconds are zero). */
  function WindowEndOf(day: int): (r: int)
    ensures DayOf(r) == day && r == LastInstantOf(day) - 999
  {
    MidnightOf(day) + 86_399_000
  }

  predicate StartOk(t: Todo, o: FilterOptions) {
    o.startDate.None? || EffectiveStart(t) >= MidnightOf(o.startDate.value)
  }

  predicate EndOk(t: Todo, o: FilterOptions) {
    o.endDate.None? || EffectiveDue(t) <= WindowEndOf(o.endDate.value)
  }

  /** A todo passes the filters when it passes every one of them. */
  predicate Keep(t: Todo, o: FilterOptions) {
    CategoryOk(t, o) && PriorityOk(t, o) && CompletionOk(t, o) && StartOk(t, o) && EndOk(t, o)
  }

  /** `Keep` under fixed options, as the callback handed to the filter. */
  function Keeper(o: FilterOptions): Todo -> bool {
    t => Keep(t, o)
  }

  /** The todos passing all active filters, in their original order. */
  function ApplyFilters(todos: seq<Todo>, o: FilterOptions): (r: seq<Todo>)
    ensures forall i :: 0 <= i < |r| ==> r[i] in todos && Keep(r[i], o)
    ensures forall i :: 0 <= i < |todos| && Keep(todos[i], o) ==> todos[i] in r
  {
    Filter(todos, Keeper(o))
  }

  /** The filter result is an order-preserving subsequence holding each passing todo as often as the input does. */
  lemma ApplyFiltersIsSubsequence(todos: seq<Todo>, o: FilterOptions)
    ensures IsSubsequence(ApplyFilters(todos, o), todos)
    ensures forall t :: multiset(ApplyFilters(todos, o))[t] == if Keep(t, o) then multiset(todos)[t] else 0
  {
    FilterIsSubsequence(todos, Keeper(o));
    FilterMultiset(todos, Keeper(o));
  }

  /** Filtering twice with the same options equals filtering once. */
  lemma ApplyFiltersIdempotent(todos: seq<Todo>, o: FilterOptions)
    ensures ApplyFilters(ApplyFilters(todos, o), o) == ApplyFilters(todos, o)
  {
    FilterIdempotent(todos, Keeper(o));
  }

  /** Filtering with two option sets in either order gives the same todos. */
  lemma ApplyFiltersCommute(todos: seq<Todo>, o1: FilterOptions, o2: FilterOptions)
    ensures ApplyFilters(ApplyFilters(todos, o1), o2) == ApplyFilters(ApplyFilters(todos, o2), o1)
  {
    FilterCommutes(todos, Keeper(o1), Keeper(o2));
  }

  /** An empty category option restricts nothing, exactly like an absent one. */
  lemma EmptyCategoryOptionIsNoRestriction(todos: seq<Todo>, o: FilterOptions)
    ensures ApplyFilters(todos, o.(categoryId := Some(""))) == ApplyFilters(todos, o.(categoryId := None))
  {
    FilterCongruent(todos, Keeper(o.(categoryId := Some(""))), Keeper(o.(categoryId := None)));
  }

  /** With a non-empty category or any priority option, every kept todo carries exactly that value. */
  lemma FilterKeepsOnlyMatching(todos: seq<Todo>, o: FilterOptions)
    ensures o.categoryId.Some? && o.categoryId.value != "" ==>
      forall t :: t in ApplyFilters(todos, o) ==> t.categoryId == o.categoryId
    ensures o.priority.Some? ==>
      forall t :: t in ApplyFilters(todos, o) ==> t.priority == o.priority.value
  {
  }

  /** Unless completed todos are explicitly shown, none survives; when shown, completion is ignored. */
  lemma ShowCompletedFilter(todos: seq<Todo>, o: FilterOptions)
    ensures o.showCompleted != Some(true) ==> forall t :: t in ApplyFilters(todos, o) ==> !t.completed
    ensures ApplyFilters(todos, o.(showCompleted := Some(true)))
         == Filter(todos, t => CategoryOk(t, o) && PriorityOk(t, o) && StartOk(t, o) && EndOk(t, o))
  {
    var o' := o.(showCompleted := Some(true));
    FilterCongruent(todos, Keeper(o'),
                    t => CategoryOk(t, o) && PriorityOk(t, o) && StartOk(t, o) && EndOk(t, o));
  }

  /**
   * The date window: a todo whose effective start is before 00:00 of the start day, or whose
   * effective due is after 23:59:59 of the end day, is excluded; with no date options nothing is.
   */
  lemma DateWindow(t: Todo, o: FilterOptions)
    ensures o.startDate.Some? && EffectiveStart(t) < MidnightOf(o.startDate.value) ==> !Keep(t, o)
    ensures o.endDate.Some? && EffectiveDue(t) > MidnightOf(o.endDate.value) + 86_399_000 ==> !Keep(t, o)
    ensures o.startDate.None? && o.endDate.None? ==> (Keep(t, o) <==> CategoryOk(t, o) && PriorityOk(t, o) && CompletionOk(t, o))
  {
  }

  // ----- State and its invariant -----

  /** The store's invariant: the filtered view is the filter of the todos under the current options. */
  predicate Consistent(s: State) {
    s.filteredTodos == ApplyFilters(s.todos, s.filterOptions)
  }

  /** The options the store starts with: only `showCompleted = true`. */
  const InitialOptions := FilterOptions(None, None, None, None, Some(true))

  /** The initial store: no todos, and completed todos shown. */
  function Init(): (s: State)
    ensures Consistent(s) && |s.todos| == 0
    ensures s.filterOptions == InitialOptions
    ensures s.filterOptions.showCompleted == Some(true) && s.filterOptions.categoryId.None?
    ensures s.filterOptions.priority.None? && s.filterOptions.startDate.None? && s.filterOptions.endDate.None?
  {
    State([], [], InitialOptions)
  }

  /** The initial options let every todo through. */
  lemma InitialOptionsKeepEverything(todos: seq<Todo>)
    ensures ApplyFilters(todos, InitialOptions) == todos
  {
    FilterAll(todos, Keeper(InitialOptions));
  }

  /** The state with `todos` as its todo list and the filtered view recomputed. */
  function WithTodos(s: State, todos: seq<Todo>): (r: State)
    ensures Consistent(r) && r.todos == todos && r.filterOptions == s.filterOptions
  {
    State(todos, ApplyFilters(todos, s.filterOptions), s.filterOptions)
  }

  // ----- Description normalisation -----

  /** The text of a raw description (`toString()`). */
  function RawText(d: DescValue): string {
    match d
    case Str(s) => s
    case Num(n) => Text.IntToString(n)
  }

  /** `!d`: JavaScript falsiness of a raw description (empty string or the number 0). */
  predicate IsFalsy(d: Option<DescValue>) {
    match d
    case None => true
    case Some(Str(s)) => s == ""
    case Some(Num(n)) => n == 0
  }

  /**
   * The description rule of add and update: a falsy, blank, '0' or 0 description is stored as
   * absent; anything else is stored trimmed.
   */
  function NormalizeDescription(d: Option<DescValue>): (r: Option<string>)
    ensures r.None? <==> d.None? || d == Some(Num(0)) || d == Some(Str("0")) || Text.IsBlank(RawText(d.value))
    ensures r.Some? ==> r.value == Text.Trim(RawText(d.value)) && r.value != "" && Text.Trim(r.value) == r.value
  {
    if IsFalsy(d) || Text.Trim(RawText(d.value)) == "" || d == Some(Str("0")) || d == Some(Num(0)) then None
    else
      Text.TrimIdempotent(RawText(d.value));
      Some(Text.Trim(RawText(d.value)))
  }

  /** A '0' with surrounding blanks is trimmed to "0" and kept: only the exact string '0' is dropped. */
  lemma PaddedZeroIsKept()
    ensures NormalizeDescription(Some(Str(" 0"))) == Some("0")
  {
    assert Text.TrimStart(" 0") == "0" by { assert " 0"[1..] == "0"; }
    assert Text.Trim(" 0") == "0" by { assert Text.TrimEnd("0") == "0"; }
    assert !Text.IsBlank(" 0") by { assert !Text.IsWhitespace(" 0"[1]); }
  }

  /** A non-zero number is stored as its decimal text, untouched by the trim. */
  lemma NumberDescriptionIsText(n: int)
    requires n != 0
    ensures NormalizeDescription(Some(Num(n))) == Some(Text.IntToString(n))
  {
    Text.IntToStringIsTrimmed(n);
  }

  // ----- Mutations -----

  /** The todo `addTodo` builds from its input, a fresh id and the current instant. */
  function NewTodo(input: CreateTodoInput, id: string, now: int): Todo {
    Todo(id, input.title, NormalizeDescription(input.description), false, input.priority,
         input.startDate, input.dueDate, now, input.categoryId, Some(0))
  }

  /** Appends one new, incomplete, undelayed todo at the end; earlier todos and the options are untouched. */
  function AddTodo(s: State, input: CreateTodoInput, id: string, now: int): (r: State)
    ensures Consistent(r) && r.filterOptions == s.filterOptions
    ensures |r.todos| == |s.todos| + 1 && r.todos[..|s.todos|] == s.todos
    ensures var t := r.todos[|s.todos|];
      && t.id == id && !t.completed && t.delayCount == Some(0) && t.createdAt == now
      && t.title == input.title && t.priority == input.priority && t.categoryId == input.categoryId
      && t.startDate == input.startDate && t.dueDate == input.dueDate
      && t.description == NormalizeDescription(input.description)
  {
    WithTodos(s, s.todos + [NewTodo(input, id, now)])
  }

  /** The todo with its completion flipped when its id is `id`. */
  function Flip(t: Todo, id: string): Todo {
    if t.id == id then t.(completed := !t.completed) else t
  }

  /** Flips completion of the todos whose id matches; every other todo and field stays as it was. */
  function ToggleTodo(s: State, id: string): (r: State)
    ensures Consistent(r) && r.filterOptions == s.filterOptions
    ensures |r.todos| == |s.todos|
    ensures forall i :: 0 <= i < |s.todos| ==>
      if s.todos[i].id == id
      then r.todos[i].completed != s.todos[i].completed && r.todos[i].(completed := s.todos[i].completed) == s.todos[i]
      else r.todos[i] == s.todos[i]
  {
    WithTodos(s, seq(|s.todos|, i requires 0 <= i < |s.todos| => Flip(s.todos[i], id)))
  }

  /** Toggling the same id twice restores the todo list (and the whole state, when it was consistent). */
  lemma ToggleTwice(s: State, id: string)
    ensures ToggleTodo(ToggleTodo(s, id), id).todos == s.todos
    ensures Consistent(s) ==> ToggleTodo(ToggleTodo(s, id), id) == s
  {
    var r := ToggleTodo(ToggleTodo(s, id), id).todos;
    assert forall i :: 0 <= i < |s.todos| ==> r[i] == s.todos[i];
  }

  /** No todo carries `id`. */
  predicate Unknown(todos: seq<Todo>, id: string) {
    forall i :: 0 <= i < |todos| ==> todos[i].id != id
  }

  /** Toggling an unknown id leaves the todos unchanged. */
  lemma ToggleUnknown(s: State, id: string)
    requires Unknown(s.todos, id)
    ensures ToggleTodo(s, id).todos == s.todos
  {
  }

  /** Removes every todo with id `id`; the rest keep their order and multiplicity. */
  function DeleteTodo(s: State, id: string): (r: State)
    ensures Consistent(r) && r.filterOptions == s.filterOptions
    ensures Unknown(r.todos, id)
    ensures forall t :: multiset(r.todos)[t] == if t.id != id then multiset(s.todos)[t] else 0
    ensures IsSubsequence(r.todos, s.todos)
  {
    var p := (t: Todo) => t.id != id;
    FilterMultiset(s.todos, p);
    FilterIsSubsequence(s.todos, p);
    WithTodos(s, Filter(s.todos, p))
  }

  /** Deleting an unknown id leaves the todos unchanged. */
  lemma DeleteUnknown(s: State, id: string)
    requires Unknown(s.todos, id)
    ensures DeleteTodo(s, id).todos == s.todos
  {
    FilterAll(s.todos, (t: Todo) => t.id != id);
  }

  /**
   * `Partial<Todo>` as `updateTodo` receives it. `None` means the key is left out; for an
   * optional field, `Some(None)` means the key is present with value `undefined`.
   * The description is normalised whatever it is, so only its raw value is kept.
   */
  datatype TodoPatch = TodoPatch(
    id: Option<string>,
    title: Option<string>,
    description: Option<DescValue>,
    completed: Option<bool>,
    priority: Option<Priority>,
    startDate: Option<Option<int>>,
    dueDate: Option<Option<int>>,
    createdAt: Option<int>,
    categoryId: Option<Option<string>>,
    delayCount: Option<Option<int>>)

  /** `{ ...t, ...p, description: normalised }`: every key present in the patch wins. */
  function ApplyPatch(t: Todo, p: TodoPatch): (r: Todo)
    ensures p.id.Some? ==> r.id == p.id.value
    ensures p.id.None? ==> r.id == t.id
    ensures p.title.Some? ==> r.title == p.title.value
    ensures p.title.None? ==> r.title == t.title
    ensures p.completed.Some? ==> r.completed == p.completed.value
    ensures p.completed.None? ==> r.completed == t.completed
    ensures p.priority.Some? ==> r.priority == p.priority.value
    ensures p.priority.None? ==> r.priority == t.priority
    ensures p.startDate.Some? ==> r.startDate == p.startDate.value
    ensures p.startDate.None? ==> r.startDate == t.startDate
    ensures p.dueDate.Some? ==> r.dueDate == p.dueDate.value
    ensures p.dueDate.None? ==> r.dueDate == t.dueDate
    ensures p.createdAt.Some? ==> r.createdAt == p.createdAt.value
    ensures p.createdAt.None? ==> r.createdAt == t.createdAt
    ensures p.categoryId.Some? ==> r.categoryId == p.categoryId.value
    ensures p.categoryId.None? ==> r.categoryId == t.categoryId
    ensures p.delayCount.Some? ==> r.delayCount == p.delayCount.value
    ensures p.delayCount.None? ==> r.delayCount == t.delayCount
    ensures r.description == NormalizeDescription(p.description)
    ensures p.description.None? ==> r.description.None?
  {
    Todo(
      p.id.GetOr(t.id),
      p.title.GetOr(t.title),
      NormalizeDescription(p.description),
      p.completed.GetOr(t.completed),
      p.priority.GetOr(t.priority),
      p.startDate.GetOr(t.startDate),
      p.dueDate.GetOr(t.dueDate),
      p.createdAt.GetOr(t.createdAt),
      p.categoryId.GetOr(t.categoryId),
      p.delayCount.GetOr(t.delayCount))
  }

  /** Merges the patch into the todos whose id matches; all other todos stay exactly as they were. */
  function UpdateTodo(s: State, id: string, p: TodoPatch): (r: State)
    ensures Consistent(r) && r.filterOptions == s.filterOptions
    ensures |r.todos| == |s.todos|
    ensures forall i :: 0 <= i < |s.todos| ==>
      r.todos[i] == if s.todos[i].id == id then ApplyPatch(s.todos[i], p) else s.todos[i]
    ensures Unknown(s.todos, id) ==> r.todos == s.todos
  {
    WithTodos(s, seq(|s.todos|, i requires 0 <= i < |s.todos| =>
      if s.todos[i].id == id then ApplyPatch(s.todos[i], p) else s.todos[i]))
  }

  /** An update whose patch leaves out the description clears the description of the updated todo. */
  lemma UpdateWithoutDescriptionClears(s: State, id: string, p: TodoPatch, i: int)
    requires 0 <= i < |s.todos| && s.todos[i].id == id && p.description.None?
    ensures UpdateTodo(s, id, p).todos[i].description.None?
  {
  }

  /** The patch an `UpdateTodoInput` amounts to: it has no id, createdAt or delayCount keys. */
  function PatchOf(u: UpdateTodoInput): (p: TodoPatch)
    ensures p.title == u.title && p.completed == u.completed && p.priority == u.priority
    ensures p.id.None? && p.createdAt.None? && p.delayCount.None?
    ensures p.dueDate.Some? <==> u.dueDate.Some?
    ensures p.dueDate.Some? ==> p.dueDate.value == u.dueDate
    ensures p.description == u.description
    ensures p.startDate.Some? <==> u.startDate.Some?
    ensures p.startDate.Some? ==> p.startDate.value == u.startDate
    ensures p.categoryId.Some? <==> u.categoryId.Some?
    ensures p.categoryId.Some? ==> p.categoryId.value == u.categoryId
  {
    TodoPatch(
      None, u.title, u.description, u.completed, u.priority,
      if u.startDate.Some? then Some(u.startDate) else None,
      if u.dueDate.Some? then Some(u.dueDate) else None,
      None,
      if u.categoryId.Some? then Some(u.categoryId) else None,
      None)
  }

  /** An update built from an `UpdateTodoInput` never changes any id, creation instant or delay count. */
  lemma UpdateInputKeepsIdentity(s: State, id: string, u: UpdateTodoInput)
    ensures var r := UpdateTodo(s, id, PatchOf(u));
      forall i :: 0 <= i < |s.todos| ==>
        r.todos[i].id == s.todos[i].id && r.todos[i].createdAt == s.todos[i].createdAt
        && r.todos[i].delayCount == s.todos[i].delayCount
  {
  }

  // ----- Filter options -----

  /** `Partial<FilterOptions>`: `None` leaves a key out, `Some(None)` sets it to `undefined`. */
  datatype OptionsPatch = OptionsPatch(
    categoryId: Option<Option<string>>,
    priority: Option<Option<Priority>>,
    startDate: Option<Option<int>>,
    endDate: Option<Option<int>>,
    showCompleted: Option<Option<bool>>)

  /** `{ ...o, ...p }`: keys present in the patch replace the current values, others are kept. */
  function MergeOptions(o: FilterOptions, p: OptionsPatch): (r: FilterOptions)
    ensures p.categoryId.None? ==> r.categoryId == o.categoryId
    ensures p.priority.None? ==> r.priority == o.priority
    ensures p.startDate.None? ==> r.startDate == o.startDate
    ensures p.endDate.None? ==> r.endDate == o.endDate
    ensures p.showCompleted.None? ==> r.showCompleted == o.showCompleted
    ensures p.categoryId.Some? ==> r.categoryId == p.categoryId.value
    ensures p.priority.Some? ==> r.priority == p.priority.value
    ensures p.startDate.Some? ==> r.startDate == p.startDate.value
    ensures p.endDate.Some? ==> r.endDate == p.endDate.value
    ensures p.showCompleted.Some? ==> r.showCompleted == p.showCompleted.value
  {
    FilterOptions(
      p.categoryId.GetOr(o.categoryId),
      p.priority.GetOr(o.priority),
      p.startDate.GetOr(o.startDate),
      p.endDate.GetOr(o.endDate),
      p.showCompleted.GetOr(o.showCompleted))
  }

  /** The patch that spells out every key of `o`, as `{ ...filterOptions, field: v }` does. */
  function FullPatch(o: FilterOptions): OptionsPatch {
    OptionsPatch(Some(o.categoryId), Some(o.priority), Some(o.startDate), Some(o.endDate), Some(o.showCompleted))
  }

  /** Merging is idempotent, an empty patch is the identity, and a full patch replaces everything. */
  lemma MergeOptionsLaws(o: FilterOptions, o2: FilterOptions, p: OptionsPatch)
    ensures MergeOptions(MergeOptions(o, p), p) == MergeOptions(o, p)
    ensures MergeOptions(o, OptionsPatch(None, None, None, None, None)) == o
    ensures MergeOptions(o, FullPatch(o2)) == o2
  {
  }

  /** Merges the partial options over the current ones and refilters; the todos are untouched. */
  function SetFilterOptions(s: State, p: OptionsPatch): (r: State)
    ensures Consistent(r) && r.todos == s.todos
    ensures r.filterOptions == MergeOptions(s.filterOptions, p)
  {
    var o := MergeOptions(s.filterOptions, p);
    State(s.todos, ApplyFilters(s.todos, o), o)
  }

  // ----- Weekly rollover -----

  /** `(delayCount || 0)`. */
  function DelayOf(t: Todo): int {
    t.delayCount.GetOr(0)
  }

  /** The incidental cleanup: a description that is exactly '0' is cleared. */
  function CleanDescription(t: Todo): (r: Todo)
    ensures r.description != Some("0")
    ensures t.description != Some("0") ==> r == t
    ensures t.description == Some("0") ==> r == t.(description := None)
  {
    if t.description == Some("0") then t.(description := None) else t
  }

  /** A todo rolls over when it has both dates, is incomplete and is due within the week of `now`. */
  predicate RollsOver(t: Todo, now: int) {
    && t.startDate.Some? && t.dueDate.Some? && !t.completed
    && Within(t.dueDate.value, StartOfWeek(now), EndOfWeek(now))
  }

  /** One todo after the rollover. */
  function Rolled(t: Todo, now: int): Todo {
    var c := CleanDescription(t);
    if c.startDate.None? || c.dueDate.None? then c
    else if Within(c.dueDate.value, StartOfWeek(now), EndOfWeek(now)) && !c.completed then
      c.(startDate := Some(AddWeeks(c.startDate.value, 1)),
         dueDate := Some(AddWeeks(c.dueDate.value, 1)),
         delayCount := Some(DelayOf(c) + 1))
    else c
  }

  /**
   * The weekly rollover: every incomplete todo with both dates that is due in the current
   * Monday-first week moves a week later and gets one more delay; nothing else changes,
   * apart from clearing descriptions equal to '0'.
   */
  function MoveUncompletedTodos(s: State, now: int): (r: State)
    ensures Consistent(r) && r.filterOptions == s.filterOptions
    ensures |r.todos| == |s.todos|
    ensures forall i :: 0 <= i < |s.todos| ==>
      var t, u := s.todos[i], r.todos[i];
      if RollsOver(t, now) then
        && u.startDate == Some(t.startDate.value + WeekMs)
        && u.dueDate == Some(t.dueDate.value + WeekMs)
        && u.delayCount == Some(DelayOf(t) + 1)
        && u.(startDate := t.startDate, dueDate := t.dueDate, delayCount := t.delayCount) == CleanDescription(t)
      else u == CleanDescription(t)
  {
    WithTodos(s, seq(|s.todos|, i requires 0 <= i < |s.todos| => Rolled(s.todos[i], now)))
  }

  /** A rolled-over todo is due after the current week, so it does not roll again this week. */
  lemma RolledLeavesWeek(t: Todo, now: int)
    requires RollsOver(t, now)
    ensures !RollsOver(Rolled(t, now), now)
    ensures Rolled(t, now).dueDate.value > EndOfWeek(now)
  {
  }

  /** Running the rollover again at any instant of the same week changes nothing further. */
  lemma MoveUncompletedTodosSingleShot(s: State, now: int, later: int)
    requires StartOfWeek(later) == StartOfWeek(now)
    ensures MoveUncompletedTodos(MoveUncompletedTodos(s, now), later) == MoveUncompletedTodos(s, now)
  {
    WeekBoundsIdempotent(now);
    WeekBoundsIdempotent(later);
    var r1 := MoveUncompletedTodos(s, now);
    var r2 := MoveUncompletedTodos(r1, later);
    forall i | 0 <= i < |s.todos|
      ensures r2.todos[i] == r1.todos[i]
    {
      var t := s.todos[i];
      if RollsOver(t, now) { RolledLeavesWeek(t, now); }
    }
    assert r2.todos == r1.todos;
  }

  /** A todo with a due date but no start date is never rolled over, whatever its due date. */
  lemma DueOnlyTodoNotRolled(t: Todo, now: int)
    requires t.startDate.None?
    ensures Rolled(t, now) == CleanDescription(t)
  {
  }

  /** A completed todo is never moved, even when due this week. */
  lemma CompletedTodoNotRolled(t: Todo, now: int)
    requires t.completed
    ensures Rolled(t, now) == CleanDescription(t)
  {
  }

  /**
   * End to end: a todo added with start and due at Monday 00:00 of the current week is, after
   * a rollover during that week, delayed once and due on the following Monday.
   */
  lemma AddThenRollover(s: State, input: CreateTodoInput, id: string, created: int, now: int)
    requires input.startDate == Some(StartOfWeek(now)) && input.dueDate == Some(StartOfWeek(now))
    ensures var r := MoveUncompletedTodos(AddTodo(s, input, id, created), now);
      var t := r.todos[|s.todos|];
      && t.delayCount == Some(1)
      && t.dueDate == Some(StartOfWeek(now) + WeekMs)
      && WeekdayIndex(DayOf(t.dueDate.value)) == 0 && t.dueDate.value > EndOfWeek(now)
  {
    var k := |s.todos|;
    var a := AddTodo(s, input, id, created);
    var t0 := a.todos[k];
    assert t0.dueDate == Some(StartOfWeek(now)) && t0.delayCount == Some(0) && !t0.completed;
    MondayRollsOver(t0, now);
    RolloverAt(a, now, k);
    NextMondayAfterWeek(now);
  }

  /** The rollover's effect on one todo that qualifies. */
  lemma RolloverAt(s: State, now: int, i: int)
    requires 0 <= i < |s.todos| && RollsOver(s.todos[i], now)
    ensures var u := MoveUncompletedTodos(s, now).todos[i];
      u.dueDate == Some(s.todos[i].dueDate.value + WeekMs) && u.delayCount == Some(DelayOf(s.todos[i]) + 1)
  {
  }

  /** A todo with both dates, incomplete and due at this week's Monday 00:00, rolls over. */
  lemma MondayRollsOver(t: Todo, now: int)
    requires t.startDate.Some? && t.dueDate == Some(StartOfWeek(now)) && !t.completed
    ensures RollsOver(t, now)
  {
  }

  /** The Monday after the current week is a Monday and lies after the week's last instant. */
  lemma NextMondayAfterWeek(now: int)
    ensures WeekdayIndex(DayOf(StartOfWeek(now) + WeekMs)) == 0
    ensures StartOfWeek(now) + WeekMs > EndOfWeek(now)
  {
    assert AddWeeks(StartOfWeek(now), 1) == StartOfWeek(now) + WeekMs;
  }
}

=== FILE: types.dfy ===
/** The entities of lib/types/todo.ts. Instants are local milliseconds (see module Calendar). */
module Types {
  import opened Wrappers

  /** Task priority: exactly three levels. */
  datatype Priority = Low | Medium | High

  /** The string form the widgets use for a priority. */
  function PriorityName(p: Priority): string {
    match p
    case Low => "low"
    case Medium => "medium"
    case High => "high"
  }

  /** The priority named by a widget string, if any. */
  function ParsePriority(s: string): (r: Option<Priority>)
    ensures r.Some? ==> PriorityName(r.value) == s
  {
    if s == "low" then Some(Low)
    else if s == "medium" then Some(Medium)
    else if s == "high" then Some(High)
    else None
  }

  /** Exactly the three names parse, each to its own priority. */
  lemma PriorityNamesRoundTrip(p: Priority, s: string)
    ensures ParsePriority(s) == Some(p) <==> s == PriorityName(p)
  {
  }

  /** Aggregation period of the dashboard: exactly three kinds. */
  datatype Period = Week | Month | Year

  function PeriodName(p: Period): string {
    match p
    case Week => "week"
    case Month => "month"
    case Year => "year"
  }

  function ParsePeriod(s: string): (r: Option<Period>)
    ensures r.Some? ==> PeriodName(r.value) == s
  {
    if s == "week" then Some(Week)
    else if s == "month" then Some(Month)
    else if s == "year" then Some(Year)
    else None
  }

  lemma PeriodNamesRoundTrip(p: Period, s: string)
    ensures ParsePeriod(s) == Some(p) <==> s == PeriodName(p)
  {
  }

  datatype Category = Category(id: string, name: string, createdAt: int)

  /**
   * A task. `description`, `startDate`, `dueDate`, `categoryId` and `delayCount` are
   * optional; the other fields are always present. Dates are instants in milliseconds.
   */
  datatype Todo = Todo(
    id: string,
    title: string,
    description: Option<string>,
    completed: bool,
    priority: Priority,
    startDate: Option<int>,
    dueDate: Option<int>,
    createdAt: int,
    categoryId: Option<string>,
    delayCount: Option<int>)

  /**
   * A raw description as it reaches the store. The declared type is a string, but the
   * store also tests it against the number 0, so numbers are modelled too.
   */
  datatype DescValue = Str(text: string) | Num(n: int)

  /** The fields a caller supplies to create a todo. */
  datatype CreateTodoInput = CreateTodoInput(
    title: string,
    description: Option<DescValue>,
    priority: Priority,
    startDate: Option<int>,
    dueDate: Option<int>,
    categoryId: Option<string>)

  /**
   * The declared shape of an edit: every field optional, `completed` included,
   * and no `id`, `createdAt` or `delayCount`. `None` means the key is left out.
   */
  datatype UpdateTodoInput = UpdateTodoInput(
    title: Option<string>,
    description: Option<DescValue>,
    priority: Option<Priority>,
    completed: Option<bool>,
    startDate: Option<int>,
    dueDate: Option<int>,
    categoryId: Option<string>)

  /**
   * The active filters of the todo store. The date bounds are day numbers
   * (the source keeps them as 'yyyy-MM-dd' strings); `showCompleted` is optional
   * in the store's own declaration and an absent value counts as false.
   */
  datatype FilterOptions = FilterOptions(
    categoryId: Option<string>,
    priority: Option<Priority>,
    startDate: Option<int>,
    endDate: Option<int>,
    showCompleted: Option<bool>)

  /** The todos of a period together with the period's (unwidened) date range. */
  datatype PeriodResult = PeriodResult(todos: seq<Todo>, start: int, end: int)

  /**
   * The placeholder `filterTodosByPeriod` exported from lib/types/todo.ts: whatever it is
   * given, it returns no todos and a date range that starts and ends at the current instant.
   */
  function FilterTodosByPeriodStub(todos: seq<Todo>, period: Period, now: int): (r: PeriodResult)
    ensures |r.todos| == 0 && r.start == r.end == now
  {
    PeriodResult([], now, now)
  }
}

=== FILE: wrappers.dfy ===
/** The optional-value wrapper used for every field the source declares with `?`. */
module Wrappers {

  /** `None` stands for an absent (or `undefined`) value. */
  datatype Option<+T> = None | Some(value: T) {

    /** The value, or `default` when absent: the source's `x ?? default`. */
    function GetOr(default: T): T {
      match this
      case Some(v) => v
      case None => default
    }
  }
}
